=== FILE: README.md ===
# Relay benchmark suite, modelled in Dafny

This project models the core of the PHP benchmark suite that compares four
Redis clients: Predis, PhpRedis, Relay without its cache, and Relay. It covers:

- the magnitude formatting of `Reporter` (`humanMemory`, `humanNumber`);
- the measurement records `Iteration` and `Subject`;
- the figures and comparison tables of `CliReporter`;
- the sequential and forking measurement paths of `Runner`;
- two benchmark classes, `BenchmarkMget` and `BenchmarkZstdIgbinary`.

Modules follow the source files:

| module | file | source |
|---|---|---|
| `Results` | `results.dfy` | `Option`, `Result` and `Outcome` values for the error paths PHP throws on |
| `HumanFormat` | `human_format.dfy` | `benchmarks/Support/Reporter.php` |
| `Workload` | `workload.dfy` | stand-ins for the `Benchmark` base class and for a Redis connection, seen as the log of commands sent on it |
| `Measurements` | `measurements.dfy` | `benchmarks/Support/Iteration.php`, `benchmarks/Support/Subject.php` |
| `Reporting` | `reporting.dfy` | `benchmarks/Support/CliReporter.php` |
| `Coordination` | `runner.dfy` | `benchmarks/Support/Runner.php` |
| `Mget` | `mget.dfy` | `benchmarks/BenchmarkMget.php` |
| `ZstdIgbinary` | `zstd_igbinary.dfy` | `benchmarks/BenchmarkZstdIgbinary.php` |

How the source's behaviour is represented:

- **State.** What the source updates in place is a class: a Subject's
  iteration list, the Runner's Redis result sets, and each connection's
  command log. The methods that change that state are proved against
  specification functions: `Samples`, `MeasuredRun`, `SumNanos`/`MaxPeak`,
  `Chunks`, `Seeds`/`Gets` and `Positions`/`Select`.
- **Errors.** PHP 8 throws on a division by zero, on `array_chunk` with a
  length below 1, and on `array_rand` asked for more keys than there are.
  Each of these is an `Err`/`Fail` value, not a precondition. A magnitude
  outside the four-entry unit tables is an `Err` too, but PHP does not
  always throw there. For 0 bytes the divisor `pow(1024, -INF)` is 0 and
  PHP 8 throws `DivisionByZeroError`. For a tier of -1 or 4 and above, PHP
  warns "Undefined array key" and prints the figure without a suffix. For a
  negative input, `log` gives NAN and the figure printed is NAN. The model's
  `Err` stands for these warnings and odd figures; it does not reproduce
  the text.
- **Inputs from outside.** Clocks, peak memory, Redis' network counters, the
  result of `pcntl_fork`, `uniqid` and `array_rand`'s draw are parameters.
  The Runner receives them as an `Environment` per benchmark method.
- **Reporter calls.** The Runner's calls to the reporter are recorded as an
  event log. Each reporter callback returns the figures it would print.

Three facts about the figures, as the code computes them:

- The concurrent path adds up the workers' elapsed nanoseconds
  (`Runner.php:162`). It has no start barrier and takes no maximum timestamp.
- The Factor column of `finishedSubjects` is `1 / (ms / base)`, which is
  `base / ms`. A subject four times slower than the baseline shows 0.25.
- The run key is `"benchmark_run:" . runId . ":" . method`
  (`Runner.php:102`, `Runner.php:110`). It has no part for the benchmark class. With more
  than one worker, two benchmark classes that share a method name therefore
  add to, and load, the same set of worker records.

Two behaviours of the code as written are kept:

- The warmup of `runMethod` reuses `$i` in both loops. A warmup of
  `Warmup <= Revolutions + 2` therefore makes a single pass of
  `Revolutions` calls, and a larger warmup never ends (`WarmupCalls`,
  `Warmup`, `WarmupSinglePass`).
- `runMethodConcurrent` notifies `finishedSubject` twice.

## Model

| member | source | states |
|---|---|---|
| HumanFormat.FloorLog | benchmarks/Support/Reporter.php:30 | the tier of an integer x >= 1 is the exponent i with base^i <= x < base^(i+1), what floor(log(x, base)) denotes |
| HumanFormat.FloorLogIsLargest | benchmarks/Support/Reporter.php:30 | no exponent larger than the tier has its power at most x: the tier is the largest such exponent |
| HumanFormat.RealTier | benchmarks/Support/Reporter.php:30 | the tier of a real x >= 1 brackets x between base^tier and base^(tier+1) |
| HumanFormat.Scale | benchmarks/Support/Reporter.php:30-35 | the lookup succeeds iff x < base^(table length); then the tier indexes the tables, x / base^tier lies in [1, base), and the suffix and decimals are the tier's table entries |
| HumanFormat.HumanMemory | benchmarks/Support/Reporter.php:28-36 | no logarithm iff bytes <= 0; tier -1 iff 0 < bytes < 1; success iff 1 <= bytes < 1024^4, with the tier bracketing bytes and the shown figure in [1, 1024) |
| HumanFormat.HumanNumber | benchmarks/Support/Reporter.php:42-50 | a number <= 0 takes tier 0 unscaled, with no suffix and 0 decimals; tier -1 iff 0 < n < 1; success iff n < 1000^4 outside (0, 1), with the tier bracketing n and the shown figure in [1, 1000) |
| HumanFormat.MemoryUnits | benchmarks/Support/Reporter.php:34-35 | tiers 0..3 are b, kb, mb, gb with 0, 0, 2, 2 decimals, each for its byte range |
| HumanFormat.NumberUnits | benchmarks/Support/Reporter.php:48-49 | tiers 0..3 are '', K, M, B with 0, 2, 2, 2 decimals, each for its range |
| HumanFormat.HumanMemoryDenotes | benchmarks/Support/Reporter.php:32-35 | the shown figure times 1024^tier gives back the byte count |
| HumanFormat.HumanNumberDenotes | benchmarks/Support/Reporter.php:46-49 | the shown figure times 1000^tier gives back the number |
| Measurements.PerSecond | benchmarks/Support/Iteration.php:35 | ops / (ms / 1000) throws iff ms is 0; otherwise rate * ms == ops * 1000 |
| Measurements.PerSecondDecreasing | benchmarks/Support/Iteration.php:35 | for a positive operation count the rate is positive and strictly falls as the time grows |
| Measurements.Iteration.OpsPerSec | benchmarks/Support/Iteration.php:31-36 | throws iff the iteration took 0 ms; otherwise rate * ms == the benchmark's opsTotal * 1000 |
| Measurements.Iteration.FinishedIterationMsg | benchmarks/Support/Iteration.php:38-48 | the line can be built iff the rate exists and rate, memory and bytesIn + bytesOut all have a unit; it carries opsTotal, the operation, the client, ms, the rate and the traffic bytesIn + bytesOut, and the shown rate, peak memory and traffic are humanNumber(rate), humanMemory(memory) and humanMemory(bytesIn + bytesOut) |
| Measurements.Samples | benchmarks/Support/Subject.php:47-49 | one sample per iteration, in list order, the k-th being the k-th iteration's field |
| Measurements.OpsSamples | benchmarks/Support/Subject.php:95-98 | the projection throws iff some iteration took 0 ms; otherwise one rate per iteration with rate * ms == opsTotal * 1000 |
| Measurements.ClientName | benchmarks/Support/Subject.php:39 | for a name of 9 or more characters, the method name is its 9-character prefix followed by the client; a shorter name gives "" |
| Measurements.ClientOfBenchmarkMethod | benchmarks/Support/Subject.php:37-40 | the client of "benchmark" + X is X |
| Measurements.Subject.constructor | benchmarks/Support/Subject.php:14-20 | the method name and benchmark are stored and the iteration list starts empty |
| Measurements.Subject.SetOpsTotal | benchmarks/Support/Subject.php:22-24 | the benchmark's opsTotal becomes the total; the iterations are untouched |
| Measurements.Subject.AddIterationObject | benchmarks/Support/Subject.php:26-28 | the iteration is appended to the list |
| Measurements.Subject.AddIteration | benchmarks/Support/Subject.php:30-35 | returns an Iteration with the given figures pointing back to this subject, appends exactly it, and every field's samples grow by its value |
| Measurements.Subject.Client | benchmarks/Support/Subject.php:37-40 | for a method name of 9 or more characters, the name is its first 9 characters followed by the client; a shorter name gives "" |
| Measurements.Subject.MsMedian | benchmarks/Support/Subject.php:45-52 | the median (as the given statistics define it) of the iterations' ms, one sample per iteration in order |
| Measurements.Subject.MsRstDev | benchmarks/Support/Subject.php:57-64 | the relative standard deviation of the iterations' ms, one sample per iteration in order |
| Measurements.Subject.MemoryMedian | benchmarks/Support/Subject.php:69-76 | the median of the iterations' peak memory |
| Measurements.Subject.BytesMedian | benchmarks/Support/Subject.php:81-88 | the median of bytesIn + bytesOut over the iterations |
| Measurements.Subject.OpsMedian | benchmarks/Support/Subject.php:93-101 | fails iff some iteration's ms is zero (the division by zero of opsPerSec); otherwise the median of the per-iteration rates |
| Measurements.Subject.Summary | benchmarks/Support/Iteration.php:50-77 | the subject line can be built iff the median time is non-zero and the rate (ops * revs) / (ms_median / 1000), the memory median and bytes_median * its have units; it carries the iteration count, the time median and rstdev, that rate and that traffic, and the shown rate, memory and traffic are humanNumber(rate), humanMemory(memory median) and humanMemory(bytes_median * its) |
| Reporting.FiguresOf | benchmarks/Support/CliReporter.php:147-153 | a subject's row figures exist iff its opsMedian does; they are exactly its client, time median, memory median, bytes median, ops median and time rstdev |
| Reporting.TimeTableBaselineFastest | benchmarks/Support/CliReporter.php:141-171 | with the subjects in ascending time and a positive baseline, every factor lies in (0, 1] and every change is >= 0 |
| Reporting.OpsTableBaselineFastest | benchmarks/Support/CliReporter.php:102-124 | with the subjects in descending throughput, a positive baseline and no negative throughput, every factor lies in [0, 1] and every change in [-100, 0] |
| Reporting.TimedSummaryOf | benchmarks/Support/CliReporter.php:84-90 | the timed line can be built iff millis is non-zero and both the count and the rate have units; it carries the name, client, operations and millis, its rate is operations / (millis / 1000), and the shown count and rate are humanNumber(operations) and humanNumber(rate) |
| Reporting.CliReporter.constructor | benchmarks/Support/Reporter.php:9-12 | the verbose flag is stored unchanged |
| Reporting.CliReporter.FinishedIteration | benchmarks/Support/CliReporter.php:37-44 | prints nothing unless verbose; when verbose, succeeds iff the iteration line can be built, and the line printed is exactly `finishedIterationMsg(operation, client)`, with its ms, rate and traffic figures |
| Reporting.CliReporter.FinishedSubject | benchmarks/Support/CliReporter.php:46-78 | prints nothing unless verbose; when verbose, succeeds iff the subject line can be built, and the line printed is exactly the subject's summary: its iteration count, client, median time, rstdev, rate, memory and traffic |
| Reporting.CliReporter.FinishedTimedSubject | benchmarks/Support/CliReporter.php:80-91 | prints nothing unless verbose; when verbose, succeeds iff the timed line can be built, and the line printed is exactly that line for the benchmark name, the client, operations and millis, with rate operations / (millis / 1000) |
| Reporting.CliReporter.FinishedSubjects | benchmarks/Support/CliReporter.php:129-174 | the table exists iff there are subjects, every opsMedian exists and no median time is 0; it has one row per subject in order, carrying its figures, with factor 1 and change 0 in the first row and base / ms and (ms / base - 1) * 100 in the others |
| Reporting.CliReporter.FinishedSubjectsConcurrent | benchmarks/Support/CliReporter.php:93-127 | the table exists iff there are subjects, workers != 0, every opsMedian exists and the baseline's is non-zero; one row per subject with IOPS/Worker * workers == ops, factor 1 and change 0 first, then ops / base and (ops / base - 1) * 100 |
| Coordination.RunKeyShape | benchmarks/Support/Runner.php:102 | the key is "benchmark_run:", the run id, ":" and the method name, each at its position |
| Coordination.RunKeySeparatesMethods | benchmarks/Support/Runner.php:102 | within one run, equal keys mean equal method names |
| Coordination.RunKeySeparatesRuns | benchmarks/Support/Runner.php:32 | run ids without ':' (uniqid's hexadecimal) never share a key across runs or methods |
| Coordination.MaxPeakIsMaximum | benchmarks/Support/Runner.php:159-164 | the folded peak is >= 0, bounds every published peak, and is 0 or one of them |
| Coordination.AggregateOrderFree | benchmarks/Support/Runner.php:161-164 | any two enumerations of the same records fold to the same nanosecond total and peak, so SMEMBERS' order does not matter |
| Coordination.Aggregate | benchmarks/Support/Runner.php:159-164 | the loop yields the sum of the nanos and the maximum peak starting from 0 |
| Coordination.Warmup | benchmarks/Support/Runner.php:179-183 | the warmup diverges iff Warmup > Revolutions + 2; otherwise it makes 0 calls for Warmup 0 and Revolutions calls otherwise |
| Coordination.WarmupSinglePass | benchmarks/Support/Runner.php:179-183 | for 1 <= Warmup <= Revolutions + 2 the warmup makes Revolutions calls, which equals Warmup * Revolutions only for Warmup 1 or no revolutions |
| Coordination.BenchmarkGetWarmup | benchmarks/BenchmarkGet.php:13-15 | BenchmarkGet's warmup makes no call |
| Coordination.TimedWindow | benchmarks/Support/Runner.php:192-194 | one timed window makes exactly Revolutions calls |
| Coordination.MeasuredRunWindows | benchmarks/Support/Runner.php:196-202 | the k-th recorded iteration has the k-th window's elapsed ms, peak memory and network counters |
| Coordination.Runner.constructor | benchmarks/Support/Runner.php:30-40 | stores the run id, worker count and verbose flag; no results, events or calls yet |
| Coordination.Runner.SaveIteration | benchmarks/Support/Runner.php:100-105 | adds one record to the set under this run's key for the method and changes nothing else |
| Coordination.Runner.LoadIterations | benchmarks/Support/Runner.php:107-115 | returns each member of that set exactly once |
| Coordination.Runner.RunWorker | benchmarks/Support/Runner.php:129-150 | a worker makes Warmup * revs warmup calls and its * revs timed calls, then publishes one record of its pid, elapsed nanos and peak |
| Coordination.Runner.MeasureWindows | benchmarks/Support/Runner.php:185-205 | Iterations windows of Revolutions calls each; the subject gains the measured iterations in order, with one finishedIteration each |
| Coordination.Runner.RunMethod | benchmarks/Support/Runner.php:178-208 | diverges iff the warmup does, recording nothing; otherwise the calls are the warmup's plus Iterations * Revolutions, the measured iterations are appended in order, and finishedSubject comes last |
| Coordination.Runner.RunMethodConcurrent | benchmarks/Support/Runner.php:117-176 | exit(1) iff some fork among the first workers fails; otherwise every worker's record is added under the key and no other key changes; one iteration (sum of nanos / 1e6, max peak, network deltas) is appended, then finishedIteration and two finishedSubject |
| Coordination.Runner.RunBenchmark | benchmarks/Support/Runner.php:216-241 | one fresh subject per method in order; each has 1 iteration when workers > 1 and Iterations otherwise; startingBenchmark comes first and finishedSubjects last |
| Coordination.Runner.Run | benchmarks/Support/Runner.php:214-242 | the benchmarks run in order, each with one fresh subject per method, stopping at the first that exits or never ends |
| Mget.ArrayChunk | benchmarks/BenchmarkMget.php:32 | array_chunk throws iff the length is below 1; otherwise it gives the chunks |
| Mget.FlattenChunks | benchmarks/BenchmarkMget.php:32 | the chunks concatenated in order give back the keys |
| Mget.ChunkSizes | benchmarks/BenchmarkMget.php:32 | every chunk but the last holds n keys; the last holds 1 to n |
| Mget.ChunkCount | benchmarks/BenchmarkMget.php:32 | there are ceil(count / n) chunks |
| Mget.AboutOperationsChunks | benchmarks/BenchmarkMget.php:29-32 | with at least 100 keys there are 100 to 199 chunks, exactly 100 for a multiple of 100 |
| Mget.Mgets | benchmarks/BenchmarkMget.php:36-38 | one MGET per chunk, in chunk order, with that chunk's keys |
| Mget.MgetWarmup | benchmarks/BenchmarkMget.php:11-13 | BenchmarkMget warms up with exactly Revolutions calls |
| Mget.BenchmarkMget.SetUp | benchmarks/BenchmarkMget.php:24-33 | succeeds iff there are at least 100 keys, then keeps the keys in chunks of count / 100 |
| Mget.BenchmarkMget.DoBenchmark | benchmarks/BenchmarkMget.php:35-40 | sends one MGET per chunk, in order, and returns the chunk count |
| Mget.BenchmarkMget.RunClient | benchmarks/BenchmarkMget.php:42-56 | the chosen client's connection receives the MGETs and the other three receive nothing |
| ZstdIgbinary.Ids | benchmarks/BenchmarkZstdIgbinary.php:42 | the keys are the item ids in data order, one per item |
| ZstdIgbinary.ReadsWhatIsSeeded | benchmarks/BenchmarkZstdIgbinary.php:49-76 | under one name, the k-th GET reads the key the k-th SET wrote, and the key sets are equal |
| ZstdIgbinary.KeyOfInjective | benchmarks/BenchmarkZstdIgbinary.php:51 | within one namespace, different ids give different keys |
| ZstdIgbinary.PrefixFor | benchmarks/BenchmarkZstdIgbinary.php:56-70 | predis reads "predis", phpredis reads "phpredis", and both Relay benchmarks read the "relay" namespace |
| ZstdIgbinary.NamespacesDisjoint | benchmarks/BenchmarkZstdIgbinary.php:56-70 | the predis, phpredis and relay namespaces never share a key, whatever the ids |
| ZstdIgbinary.PositionsOrdered | benchmarks/BenchmarkZstdIgbinary.php:103-107 | the kept positions are the chosen indices below the data length, each once, increasing |
| ZstdIgbinary.PositionsCount | benchmarks/BenchmarkZstdIgbinary.php:106 | there is one kept position per chosen index in range |
| ZstdIgbinary.SelectAtPositions | benchmarks/BenchmarkZstdIgbinary.php:103-108 | the intersected and re-indexed array is the data at the kept positions, in data order |
| ZstdIgbinary.RandomItems | benchmarks/BenchmarkZstdIgbinary.php:101-109 | throws iff there are fewer than 10 items; otherwise exactly 10 items from distinct chosen positions, in increasing order |
| ZstdIgbinary.ZstdWarmup | benchmarks/BenchmarkZstdIgbinary.php:14-16 | the benchmark warms up with exactly Revolutions calls |
| ZstdIgbinary.BenchmarkZstdIgbinary.SeedClient | benchmarks/BenchmarkZstdIgbinary.php:72-76 | one SET of name:id per item, in data order, all with the same payload |
| ZstdIgbinary.BenchmarkZstdIgbinary.SetUp | benchmarks/BenchmarkZstdIgbinary.php:34-47 | stores the data and its ids. It fails iff there are fewer than 10 items, and then writes nothing. Otherwise relay is seeded through relayNoCache, predis with the serialized items and phpredis with the items; the cached relay connection gets nothing |
| ZstdIgbinary.BenchmarkZstdIgbinary.DoBenchmark | benchmarks/BenchmarkZstdIgbinary.php:49-54 | one GET of name:key per key, in order; returns the key count |
| ZstdIgbinary.BenchmarkZstdIgbinary.RunClient | benchmarks/BenchmarkZstdIgbinary.php:56-70 | the chosen client reads every key in its namespace and the other three connections receive nothing |
| ZstdIgbinary.BenchmarkReadsSeededKeys | benchmarks/BenchmarkZstdIgbinary.php:44-69 | every benchmark method reads exactly the keys its namespace was seeded with; Relay reads what was seeded under "relay" |

## Left out

- Redis I/O is not modelled: connections, `INFO`, `CONFIG RESETSTAT`, `flush`, `setUpClients` and `setOption`'s serializer and compression settings. A connection is the log of commands sent on it, and the result store is a map from key to set.
- Process concurrency is not modelled: `pcntl_fork`, `pcntl_waitpid` and `exit`. The workers run one after another inside `RunMethodConcurrent`. A fork failure is the `Exited(1)` status, and a worker's own new benchmark instance and `setUp` are not modelled.
- Time, memory and randomness are parameters: `hrtime`, `usleep`, `memory_get_peak_usage`, `memory_reset_peak_usage`, `uniqid` and `array_rand`'s draw. The benchmark method calls themselves are counted, not executed.
- Floating point is modelled as exact reals. This affects `number_format`'s rounding and `log`/`floor` at exact powers of 1000 or 1024, where the model uses integer powers. `printf`, ANSI colours and Symfony `Table` rendering are output only.
- Reporting.CliReporter.FinishedSubjects: the rows carry raw figures. Passing the cell values through `humanMemory`/`humanNumber`, with the errors that could raise, is not modelled.
- Reporting.CliReporter.FinishedSubjectsConcurrent: the same as for FinishedSubjects.
- `Statistics::median`/`rstdev` are given functions; `Statistics` is not part of this model.
- `Subjects::sortByTime`/`sortByOpsPerSec` are not part of this model. The table methods take their subjects in the sorted order, and the baseline lemmas assume that order.
- The `Benchmark` base class is not part of this model. It is reduced to its name, ops, Warmup, Iterations, Revolutions and opsTotal, and `loadJson`/JSON decoding become parameters.
- `startingBenchmark` and `startingTimedBenchmark` are not modelled beyond a `BenchmarkStarted` event, because they only print.
- The constructor's `System::cpu`, OPcache/Xdebug/New Relic probes and banners, and the `var_dump` in `opsMedian`, are output only and are not modelled.
- The reporter callbacks do not match their declarations, and the model records the intended notifications as events instead. The first defect comes first at run time: `CliReporter::finishedTimedSubject` (`CliReporter.php:80`) drops the fourth parameter of the abstract method (`Reporter.php:20`). PHP refuses such an incompatible declaration when the class is loaded, so as written `run` stops at `new CliReporter` (`Runner.php:224`), before any benchmark method runs.
- Coordination.Runner.MeasureWindows: models the intended flow. Even if CliReporter loaded, `Runner.php:204` calls `finishedIteration($iteration)` with one argument, while `CliReporter.php:37` declares three. PHP 8 throws `ArgumentCountError` there, so the first measured window would be the last one.
- Coordination.Runner.RunMethod: models the intended flow. Even if CliReporter loaded, the `ArgumentCountError` at `Runner.php:204` would end the method after the warmup and one measured window, and `finishedSubject` (`Runner.php:207`) would not be reached.
- Coordination.Runner.RunMethodConcurrent: models the intended flow. Even if CliReporter loaded, `Runner.php:167` would throw `ArgumentCountError` right after `addIteration`, so neither `finishedSubject` call would be made.
- Coordination.Runner.RunBenchmark: models the intended flow. As written, it stops at `new CliReporter` (`Runner.php:224`). Even if CliReporter loaded, the first method's `ArgumentCountError` would propagate out, so no later method would run and `finishedSubjects` (`Runner.php:240`) would not be reached. The model gives the intended order of subjects and events.
- Coordination.Runner.RunBenchmark: on an early stop it states only which subjects were created, and in between it states only the first and last events, not every notification.
- Coordination.Runner.Run: states the subjects created per benchmark, not the calls or events.
- Coordination.MeasuredRun: its own contract states only the length; the per-window content is in MeasuredRunWindows.
- Mget.BenchmarkMget.RunClient and ZstdIgbinary.BenchmarkZstdIgbinary.RunClient: one method, chosen by client kind, stands for the four `benchmark*` methods.
- `BenchmarkGet` is not modelled beyond its warmup constants, because its only logic forwards each key to a client's `get`.

=== FILE: human_format.dfy ===
/** The magnitude formatting of benchmarks/Support/Reporter.php: humanMemory
    (base 1024, suffixes b/kb/mb/gb) and humanNumber (base 1000, suffixes
    ''/K/M/B). The source picks a tier with floor(log(x, base)); the model
    computes the same tier with integer powers. */
module HumanFormat {
  import opened Results

  /** A formatted magnitude: the tier picked, the value scaled down to that
      tier, and the decimals and suffix the tier selects. */
  datatype Human = Human(tier: nat, scaled: real, decimals: nat, suffix: string)

  datatype FormatError =
    | NoLogarithm            // x <= 0: log is -INF or NAN
    | BelowFirstTier         // 0 < x < 1: the tier is -1, outside the tables
    | BeyondLastTier(tier: nat) // the tier is 4 or more, outside the 4-entry tables

  const MemorySuffixes: seq<string> := ["b", "kb", "mb", "gb"]
  const MemoryDecimals: seq<nat> := [0, 0, 2, 2]
  const NumberSuffixes: seq<string> := ["", "K", "M", "B"]
  const NumberDecimals: seq<nat> := [0, 2, 2, 2]

  function Pow(base: nat, e: nat): (p: nat)
    ensures base >= 1 ==> p >= 1
  {
    if e == 0 then 1 else base * Pow(base, e - 1)
  }

  lemma MulMonotone(a: nat, x: nat, y: nat)
    requires x <= y
    ensures a * x <= a * y
  {}

  /** Powers of a base of at least 2 grow strictly. */
  lemma {:induction false} PowStrictlyIncreasing(base: nat, i: nat, j: nat)
    requires base >= 2 && i < j
    ensures Pow(base, i) < Pow(base, j)
  {
    if j == i + 1 {
      MulMonotone(Pow(base, i), 2, base);
    } else {
      PowStrictlyIncreasing(base, i, j - 1);
      MulMonotone(Pow(base, j - 1), 2, base);
    }
  }

  /** One step of the tier recursion: a tier of x / base gives the next
      tier of x. */
  lemma TierStep(base: nat, x: nat, j: nat)
    requires base >= 2 && x >= base
    requires Pow(base, j) <= x / base < Pow(base, j + 1)
    ensures Pow(base, j + 1) <= x < Pow(base, j + 2)
  {
    var q := x / base;
    var p, p1, p2 := Pow(base, j), Pow(base, j + 1), Pow(base, j + 2);
    assert p1 == base * p;
    assert p2 == base * p1;
    DivisionBounds(x, base);
    MulMonotone(base, p, q);
    MulMonotone(base, q + 1, p1);
  }

  lemma DivisionBounds(x: nat, base: nat)
    requires base >= 1
    ensures base * (x / base) <= x < base * (x / base + 1)
  {
    var q, r := x / base, x % base;
    assert x == base * q + r && 0 <= r < base;
    assert base * (q + 1) == base * q + base;
  }

  /** The tier of x: what floor(log(x, base)) computes for x >= 1, i.e. the
      exponent of the largest power of base not above x. */
  function FloorLog(base: nat, x: nat): (i: nat)
    requires base >= 2 && x >= 1
    ensures Pow(base, i) <= x < Pow(base, i + 1)
    decreases x
  {
    if x < base then 0
    else
      var j := FloorLog(base, x / base);
      TierStep(base, x, j);
      j + 1
  }

  /** FloorLog is the largest exponent whose power does not exceed x. */
  lemma FloorLogIsLargest(base: nat, x: nat, j: nat)
    requires base >= 2 && x >= 1
    requires Pow(base, j) <= x
    ensures j <= FloorLog(base, x)
  {
    var i := FloorLog(base, x);
    if j > i {
      if j > i + 1 {
        PowStrictlyIncreasing(base, i + 1, j);
      }
      assert false;
    }
  }

  /** The tier of a real magnitude x >= 1, through its integer part. */
  function RealTier(base: nat, x: real): (i: nat)
    requires base >= 2 && x >= 1.0
    ensures Pow(base, i) as real <= x < Pow(base, i + 1) as real
  {
    var n := x.Floor;
    FloorLog(base, n as nat)
  }

  /** The tier of x >= 1 for a base and a pair of tables, as both
      humanMemory and humanNumber pick it; a tier past the tables is an
      error. */
  function Scale(base: nat, x: real, suffixes: seq<string>, decimals: seq<nat>): (r: Result<Human, FormatError>)
    requires base >= 2 && x >= 1.0 && |suffixes| == |decimals|
    ensures r.Ok? <==> x < Pow(base, |suffixes|) as real
    ensures r.Ok? ==>
      var h := r.value;
      && h.tier < |suffixes|
      && Pow(base, h.tier) as real <= x < Pow(base, h.tier + 1) as real
      && h.scaled == x / Pow(base, h.tier) as real
      && 1.0 <= h.scaled < base as real
      && h.suffix == suffixes[h.tier] && h.decimals == decimals[h.tier]
  {
    var i := RealTier(base, x);
    if i < |suffixes| then
      var p := Pow(base, i) as real;
      TierScaling(base, x, i, |suffixes|);
      Ok(Human(i, x / p, decimals[i], suffixes[i]))
    else
      PowLowerBound(base, |suffixes|, i);
      Err(BeyondLastTier(i))
  }

  /** Within tier i < n, x lies below base^n and scales into [1, base). */
  lemma TierScaling(base: nat, x: real, i: nat, n: nat)
    requires base >= 2 && i < n
    requires Pow(base, i) as real <= x < Pow(base, i + 1) as real
    ensures x < Pow(base, n) as real
    ensures 1.0 <= x / Pow(base, i) as real < base as real
    ensures (x / Pow(base, i) as real) * Pow(base, i) as real == x
  {
    var p := Pow(base, i);
    assert Pow(base, i + 1) == base * p;
    CastProduct(base, p);
    ScaledBounds(base as real, p as real, Pow(base, i + 1) as real, x);
    PowLowerBound(base, i + 1, n);
  }

  /** Dividing a magnitude in [p, b * p) by p lands in [1, b). */
  lemma ScaledBounds(b: real, p: real, p1: real, x: real)
    requires p >= 1.0 && p1 == b * p && p <= x < p1
    ensures 1.0 <= x / p < b && (x / p) * p == x
  {
    var s := x / p;
    assert s * p == x;
    RealMulCancel(1.0, s, p);
    RealMulCancel(s, b, p);
  }

  lemma CastProduct(a: nat, b: nat)
    ensures (a * b) as real == a as real * b as real
  {}

  lemma RealMulCancel(a: real, b: real, p: real)
    requires p > 0.0
    ensures a * p <= b * p ==> a <= b
    ensures a * p < b * p ==> a < b
  {}

  lemma PowLowerBound(base: nat, i: nat, j: nat)
    requires base >= 2 && i <= j
    ensures Pow(base, i) <= Pow(base, j)
  {
    if i < j { PowStrictlyIncreasing(base, i, j); }
  }

  /** humanMemory: no guard against zero or negative input (the logarithm
      is undefined there), tier -1 below one byte, and no entry past "gb". */
  function HumanMemory(bytes: real): (r: Result<Human, FormatError>)
    ensures r == Err(NoLogarithm) <==> bytes <= 0.0
    ensures r == Err(BelowFirstTier) <==> 0.0 < bytes < 1.0
    ensures r.Ok? <==> 1.0 <= bytes < Pow(1024, 4) as real
    ensures r.Ok? ==>
      && Pow(1024, r.value.tier) as real <= bytes < Pow(1024, r.value.tier + 1) as real
      && 1.0 <= r.value.scaled < 1024.0
  {
    if bytes <= 0.0 then Err(NoLogarithm)
    else if bytes < 1.0 then Err(BelowFirstTier)
    else Scale(1024, bytes, MemorySuffixes, MemoryDecimals)
  }

  /** humanNumber: a non-positive number uses tier 0 without a logarithm;
      0 < n < 1 gives tier -1 and a number past "B" has no table entry. */
  function HumanNumber(number: real): (r: Result<Human, FormatError>)
    ensures number <= 0.0 ==> r == Ok(Human(0, number, 0, ""))
    ensures r == Err(BelowFirstTier) <==> 0.0 < number < 1.0
    ensures r.Ok? <==> number < Pow(1000, 4) as real && !(0.0 < number < 1.0)
    ensures r.Ok? && number >= 1.0 ==>
      && Pow(1000, r.value.tier) as real <= number < Pow(1000, r.value.tier + 1) as real
      && 1.0 <= r.value.scaled < 1000.0
  {
    if number <= 0.0 then Ok(Human(0, number / 1.0, NumberDecimals[0], NumberSuffixes[0]))
    else if number < 1.0 then Err(BelowFirstTier)
    else Scale(1000, number, NumberSuffixes, NumberDecimals)
  }

  /** The memory tiers 0..3 are bytes, kilobytes, megabytes and gigabytes,
      shown with 0, 0, 2 and 2 decimals. */
  lemma MemoryUnits(bytes: real)
    requires 1.0 <= bytes < Pow(1024, 4) as real
    ensures HumanMemory(bytes).Ok?
    ensures var h := HumanMemory(bytes).value;
      && (h.tier == 0 ==> h.suffix == "b" && h.decimals == 0 && bytes < 1024.0)
      && (h.tier == 1 ==> h.suffix == "kb" && h.decimals == 0 && 1024.0 <= bytes < 1048576.0)
      && (h.tier == 2 ==> h.suffix == "mb" && h.decimals == 2 && 1048576.0 <= bytes < 1073741824.0)
      && (h.tier == 3 ==> h.suffix == "gb" && h.decimals == 2 && 1073741824.0 <= bytes)
  {
  }

  /** The number tiers 0..3 have no suffix, K, M and B, shown with 0, 2, 2
      and 2 decimals. */
  lemma NumberUnits(number: real)
    requires 1.0 <= number < Pow(1000, 4) as real
    ensures HumanNumber(number).Ok?
    ensures var h := HumanNumber(number).value;
      && (h.tier == 0 ==> h.suffix == "" && h.decimals == 0 && number < 1000.0)
      && (h.tier == 1 ==> h.suffix == "K" && h.decimals == 2 && 1000.0 <= number < 1000000.0)
      && (h.tier == 2 ==> h.suffix == "M" && h.decimals == 2 && 1000000.0 <= number < 1000000000.0)
      && (h.tier == 3 ==> h.suffix == "B" && h.decimals == 2 && 1000000000.0 <= number)
  {
  }

  lemma QuotientTimesDivisor(x: real, p: real)
    requires p != 0.0
    ensures (x / p) * p == x
  {}

  /** The figure humanMemory shows, times the unit of its suffix, is the
      input again. */
  lemma HumanMemoryDenotes(bytes: real)
    requires HumanMemory(bytes).Ok?
    ensures HumanMemory(bytes).value.scaled * Pow(1024, HumanMemory(bytes).value.tier) as real == bytes
  {
    var h := HumanMemory(bytes).value;
    QuotientTimesDivisor(bytes, Pow(1024, h.tier) as real);
  }

  /** The figure humanNumber shows, times the unit of its suffix, is the
      input again (tier 0 is the unit 1). */
  lemma HumanNumberDenotes(number: real)
    requires HumanNumber(number).Ok?
    ensures HumanNumber(number).value.scaled * Pow(1000, HumanNumber(number).value.tier) as real == number
  {
    var h := HumanNumber(number).value;
    QuotientTimesDivisor(number, Pow(1000, h.tier) as real);
  }
}

=== FILE: measurements.dfy ===
/** The result aggregation of benchmarks/Support/Iteration.php and
    benchmarks/Support/Subject.php. Iteration is a record fixed at
    construction that points back to its Subject; a Subject owns an
    append-only list of Iterations and projects their fields into the
    median and relative standard deviation of the Statistics class, which
    is passed in as a pair of functions. */
module Measurements {
  import opened Results
  import opened HumanFormat
  import opened Workload

  /** The Statistics class: median and relative standard deviation. */
  datatype Statistics = Statistics(median: seq<real> -> real, rstdev: seq<real> -> real)

  /** What makes a report fail: PHP's DivisionByZeroError, a magnitude
      outside the unit tables, or an empty list of subjects. */
  datatype ReportError = DivisionByZero | Format(error: FormatError) | NoSubjects

  /** `ops / (ms / 1000)`: the rate per second of ops operations done in ms
      milliseconds; PHP 8 throws on a zero divisor. */
  function PerSecond(ops: real, ms: real): (r: Result<real, ReportError>)
    ensures r.Err? <==> ms == 0.0
    ensures r.Ok? ==> r.value * ms == ops * 1000.0
  {
    if ms == 0.0 then Err(DivisionByZero) else Ok(ops / (ms / 1000.0))
  }

  /** For a fixed positive operation count the rate is positive and falls
      strictly as the time grows. */
  lemma PerSecondDecreasing(ops: real, ms1: real, ms2: real)
    requires ops > 0.0 && 0.0 < ms1 < ms2
    ensures PerSecond(ops, ms1).Ok? && PerSecond(ops, ms2).Ok?
    ensures 0.0 < PerSecond(ops, ms2).value < PerSecond(ops, ms1).value
  {
    var r1, r2 := PerSecond(ops, ms1).value, PerSecond(ops, ms2).value;
    assert r1 * ms1 == ops * 1000.0 && r2 * ms2 == ops * 1000.0;
    PositiveFactor(r2, ms2, ops * 1000.0);
    assert r2 * ms1 < r2 * ms2;
    PositiveFactor(r1, ms1, ops * 1000.0);
    CancelFactor(r2, r1, ms1);
  }

  lemma PositiveFactor(r: real, m: real, p: real)
    requires m > 0.0 && p > 0.0 && r * m == p
    ensures r > 0.0
  {}

  lemma CancelFactor(a: real, b: real, m: real)
    requires m > 0.0 && a * m < b * m
    ensures a < b
  {}

  datatype Iteration = Iteration(ms: real, memory: int, bytesIn: int, bytesOut: int, subject: Subject)
  {
    /** opsPerSec: the benchmark's total operation count over this
        iteration's time in seconds. */
    function OpsPerSec(): (r: Result<real, ReportError>)
      reads subject.benchmark
      ensures r.Err? <==> ms == 0.0
      ensures r.Ok? ==> r.value * ms == subject.benchmark.opsTotal as real * 1000.0
    {
      PerSecond(subject.benchmark.opsTotal as real, ms)
    }

    /** finishedIterationMsg: the operation count, the time, the rate, the
        peak memory and the network traffic bytesIn + bytesOut. */
    function FinishedIterationMsg(operation: string, client: string): (r: Result<IterationMsg, ReportError>)
      reads subject.benchmark
      ensures r.Ok? <==>
        && ms != 0.0
        && HumanNumber(OpsPerSec().value).Ok?
        && HumanMemory(memory as real).Ok?
        && HumanMemory((bytesIn + bytesOut) as real).Ok?
      ensures r.Ok? ==>
        && r.value.opsTotal == subject.benchmark.opsTotal
        && r.value.operation == operation && r.value.client == client && r.value.ms == ms
        && r.value.opsPerSec == OpsPerSec().value
        && r.value.network == bytesIn + bytesOut
      ensures r.Ok? ==>
        && r.value.opsPerSecShown == HumanNumber(OpsPerSec().value).value
        && r.value.memoryShown == HumanMemory(memory as real).value
        && r.value.networkShown == HumanMemory((bytesIn + bytesOut) as real).value
    {
      var rate := OpsPerSec();
      if rate.Err? then Err(rate.error)
      else
        var rateShown := HumanNumber(rate.value);
        var memoryShown := HumanMemory(memory as real);
        var networkShown := HumanMemory((bytesIn + bytesOut) as real);
        if rateShown.Err? then Err(Format(rateShown.error))
        else if memoryShown.Err? then Err(Format(memoryShown.error))
        else if networkShown.Err? then Err(Format(networkShown.error))
        else
          Ok(IterationMsg(subject.benchmark.opsTotal, operation, client, ms, rate.value,
                          rateShown.value, memoryShown.value, bytesIn + bytesOut, networkShown.value))
    }
  }

  /** The figures of one "Executed ... ops/s" iteration line. */
  datatype IterationMsg = IterationMsg(
    opsTotal: nat, operation: string, client: string, ms: real,
    opsPerSec: real, opsPerSecShown: Human, memoryShown: Human,
    network: int, networkShown: Human)

  /** The figures of one "Executed N iterations ..." subject line. */
  datatype SubjectSummary = SubjectSummary(
    iterations: nat, opsTotal: nat, name: string, client: string,
    msMedian: real, rstdev: real,
    opsPerSec: real, opsPerSecShown: Human,
    memoryShown: Human, network: real, networkShown: Human)

  /** The per-iteration fields a Subject hands to Statistics. */
  datatype Field = Ms | Memory | Bytes

  function FieldOf(iteration: Iteration, field: Field): real
  {
    match field
    case Ms => iteration.ms
    case Memory => iteration.memory as real
    case Bytes => (iteration.bytesIn + iteration.bytesOut) as real
  }

  /** The array_map projection of one field over the iterations: one sample
      per iteration, in list order. */
  function Samples(iterations: seq<Iteration>, field: Field): (xs: seq<real>)
    ensures |xs| == |iterations|
    ensures forall k :: 0 <= k < |iterations| ==> xs[k] == FieldOf(iterations[k], field)
  {
    if iterations == [] then []
    else Samples(iterations[..|iterations| - 1], field) + [FieldOf(iterations[|iterations| - 1], field)]
  }

  /** The benchmarks whose opsTotal the iterations' rates read. */
  function BenchmarksOf(iterations: seq<Iteration>): set<Benchmark>
  {
    set k | 0 <= k < |iterations| :: iterations[k].subject.benchmark
  }

  /** The projection behind opsMedian: every iteration's opsPerSec, in list
      order; one iteration with zero time makes the whole projection throw. */
  function OpsSamples(iterations: seq<Iteration>): (r: Result<seq<real>, ReportError>)
    reads BenchmarksOf(iterations)
    ensures r.Err? <==> exists k :: 0 <= k < |iterations| && iterations[k].ms == 0.0
    ensures r.Ok? ==> |r.value| == |iterations|
    ensures r.Ok? ==> forall k :: 0 <= k < |iterations| ==>
      r.value[k] * iterations[k].ms == iterations[k].subject.benchmark.opsTotal as real * 1000.0
  {
    if iterations == [] then Ok([])
    else
      var n := |iterations| - 1;
      assert BenchmarksOf(iterations[..n]) <= BenchmarksOf(iterations);
      match OpsSamples(iterations[..n])
      case Err(e) => Err(e)
      case Ok(xs) =>
        match iterations[n].OpsPerSec()
        case Err(e) => Err(e)
        case Ok(x) => Ok(xs + [x])
  }

  /** substr($method, 9): the method name without its "benchmark" prefix;
      PHP 8 gives "" for a name of 9 characters or fewer. */
  function ClientName(methodName: string): (client: string)
    ensures |methodName| >= 9 ==> methodName == methodName[..9] + client
    ensures |methodName| <= 9 ==> client == ""
  {
    if |methodName| <= 9 then "" else methodName[9..]
  }

  lemma ClientOfBenchmarkMethod(name: string)
    ensures ClientName("benchmark" + name) == name
  {
    var m := "benchmark" + name;
    assert m[..9] == "benchmark";
    assert m == m[..9] + name;
  }

  class Subject {
    const methodName: string
    const benchmark: Benchmark
    var iterations: seq<Iteration>

    constructor (methodName: string, benchmark: Benchmark)
      ensures this.methodName == methodName && this.benchmark == benchmark
      ensures iterations == []
    {
      this.methodName := methodName;
      this.benchmark := benchmark;
      iterations := [];
    }

    /** setOpsTotal only forwards to the benchmark. */
    method SetOpsTotal(total: nat)
      modifies benchmark
      ensures benchmark.opsTotal == total
      ensures iterations == old(iterations)
    {
      benchmark.SetOpsTotal(total);
    }

    method AddIterationObject(iteration: Iteration)
      modifies this
      ensures iterations == old(iterations) + [iteration]
    {
      iterations := iterations + [iteration];
    }

    /** addIteration: appends one Iteration that carries the given figures
        and points back to this subject, and returns it; every field's
        samples grow by exactly that iteration's value. */
    method AddIteration(ms: real, memory: int, bytesIn: int, bytesOut: int) returns (iteration: Iteration)
      modifies this
      ensures iteration == Iteration(ms, memory, bytesIn, bytesOut, this)
      ensures iterations == old(iterations) + [iteration]
      ensures forall f: Field :: Samples(iterations, f) == Samples(old(iterations), f) + [FieldOf(iteration, f)]
    {
      iteration := Iteration(ms, memory, bytesIn, bytesOut, this);
      AddIterationObject(iteration);
    }

    function Client(): (client: string)
      ensures |methodName| >= 9 ==> methodName == methodName[..9] + client
      ensures |methodName| <= 9 ==> client == ""
    {
      ClientName(methodName)
    }

    function MsMedian(stats: Statistics): (r: real)
      reads this
      ensures r == stats.median(Samples(iterations, Ms))
    {
      stats.median(Samples(iterations, Ms))
    }

    function MsRstDev(stats: Statistics): (r: real)
      reads this
      ensures r == stats.rstdev(Samples(iterations, Ms))
    {
      stats.rstdev(Samples(iterations, Ms))
    }

    function MemoryMedian(stats: Statistics): (r: real)
      reads this
      ensures r == stats.median(Samples(iterations, Memory))
    {
      stats.median(Samples(iterations, Memory))
    }

    function BytesMedian(stats: Statistics): (r: real)
      reads this
      ensures r == stats.median(Samples(iterations, Bytes))
    {
      stats.median(Samples(iterations, Bytes))
    }

    function OpsMedian(stats: Statistics): (r: Result<real, ReportError>)
      reads this, BenchmarksOf(iterations)
      ensures r.Err? <==> exists k :: 0 <= k < |iterations| && iterations[k].ms == 0.0
      ensures r.Ok? ==> r.value == stats.median(OpsSamples(iterations).value)
    {
      match OpsSamples(iterations)
      case Err(e) => Err(e)
      case Ok(xs) => Ok(stats.median(xs))
    }

    /** finishedSubjectMsg, and the same figures in CliReporter's
        finishedSubject: throughput (ops * revs) / (ms_median / 1000) and
        network bytes_median * its. */
    function Summary(stats: Statistics): (r: Result<SubjectSummary, ReportError>)
      reads this, benchmark
      ensures r.Ok? <==>
        && MsMedian(stats) != 0.0
        && HumanNumber(PerSecond((benchmark.ops * benchmark.revolutions) as real, MsMedian(stats)).value).Ok?
        && HumanMemory(MemoryMedian(stats)).Ok?
        && HumanMemory(BytesMedian(stats) * benchmark.iterations as real).Ok?
      ensures r.Ok? ==>
        && r.value.iterations == |iterations|
        && r.value.opsTotal == benchmark.opsTotal
        && r.value.name == benchmark.name
        && r.value.client == Client()
        && r.value.msMedian == MsMedian(stats) && r.value.rstdev == MsRstDev(stats)
        && r.value.opsPerSec == PerSecond((benchmark.ops * benchmark.revolutions) as real, MsMedian(stats)).value
        && r.value.network == BytesMedian(stats) * benchmark.iterations as real
      ensures r.Ok? ==>
        && r.value.opsPerSecShown == HumanNumber(PerSecond((benchmark.ops * benchmark.revolutions) as real, MsMedian(stats)).value).value
        && r.value.memoryShown == HumanMemory(MemoryMedian(stats)).value
        && r.value.networkShown == HumanMemory(BytesMedian(stats) * benchmark.iterations as real).value
    {
      var msMedian := MsMedian(stats);
      var network := BytesMedian(stats) * benchmark.iterations as real;
      var rate := PerSecond((benchmark.ops * benchmark.revolutions) as real, msMedian);
      if rate.Err? then Err(rate.error)
      else
        var rateShown := HumanNumber(rate.value);
        var memoryShown := HumanMemory(MemoryMedian(stats));
        var networkShown := HumanMemory(network);
        if rateShown.Err? then Err(Format(rateShown.error))
        else if memoryShown.Err? then Err(Format(memoryShown.error))
        else if networkShown.Err? then Err(Format(networkShown.error))
        else
          Ok(SubjectSummary(|iterations|, benchmark.opsTotal, benchmark.name, Client(), msMedian,
                            MsRstDev(stats), rate.value, rateShown.value, memoryShown.value,
                            network, networkShown.value))
    }
  }
}

=== FILE: mget.dfy ===
/** benchmarks/BenchmarkMget.php: the keys split into about Operations
    chunks by array_chunk, one MGET per chunk on the client under test. */
module Mget {
  import opened Results
  import opened Workload
  import Coordination

  const Operations: nat := 100
  const Iterations: nat := 5
  const Revolutions: nat := 500
  const Warmup: nat := 1

  /** array_chunk throws a ValueError for a length below 1. */
  datatype ChunkError = LengthBelowOne

  /** Consecutive slices of n elements, the last one possibly shorter. */
  function Chunks<T>(xs: seq<T>, n: nat): seq<seq<T>>
    requires n >= 1
    decreases |xs|
  {
    if xs == [] then []
    else if |xs| <= n then [xs]
    else [xs[..n]] + Chunks(xs[n..], n)
  }

  /** array_chunk($xs, $length): PHP passes a float length to the int
      parameter truncated toward zero. */
  function ArrayChunk<T>(xs: seq<T>, length: int): (r: Result<seq<seq<T>>, ChunkError>)
    ensures r.Err? <==> length < 1
    ensures r.Ok? ==> r.value == Chunks(xs, length)
  {
    if length < 1 then Err(LengthBelowOne) else Ok(Chunks(xs, length))
  }

  function Flatten<T>(xss: seq<seq<T>>): seq<T>
  {
    if xss == [] then [] else xss[0] + Flatten(xss[1..])
  }

  /** Concatenating the chunks in order gives back the keys. */
  lemma {:induction false} FlattenChunks<T>(xs: seq<T>, n: nat)
    requires n >= 1
    ensures Flatten(Chunks(xs, n)) == xs
    decreases |xs|
  {
    if xs != [] && |xs| > n {
      FlattenChunks(xs[n..], n);
      assert xs == xs[..n] + xs[n..];
    }
  }

  /** Every chunk but the last holds exactly n keys; the last one holds
      between 1 and n. */
  lemma {:induction false} ChunkSizes<T>(xs: seq<T>, n: nat)
    requires n >= 1
    ensures forall k :: 0 <= k < |Chunks(xs, n)| - 1 ==> |Chunks(xs, n)[k]| == n
    ensures Chunks(xs, n) != [] ==> 1 <= |Chunks(xs, n)[|Chunks(xs, n)| - 1]| <= n
    decreases |xs|
  {
    if xs != [] && |xs| > n {
      ChunkSizes(xs[n..], n);
      var rest := Chunks(xs[n..], n);
      assert Chunks(xs, n) == [xs[..n]] + rest;
      assert forall k :: 1 <= k < |Chunks(xs, n)| ==> Chunks(xs, n)[k] == rest[k - 1];
    }
  }

  /** There are ceil(|xs| / n) chunks. */
  lemma {:induction false} ChunkCount<T>(xs: seq<T>, n: nat)
    requires n >= 1
    ensures |Chunks(xs, n)| == (|xs| + n - 1) / n
    decreases |xs|
  {
    if xs == [] {
      assert (n - 1) / n == 0;
    } else if |xs| <= n {
      assert n <= |xs| + n - 1 < 2 * n;
      assert (|xs| + n - 1) / n == 1;
    } else {
      ChunkCount(xs[n..], n);
      assert (|xs| + n - 1) / n == (|xs| - n + n - 1) / n + 1 by {
        DivShift(|xs| - n + n - 1, n);
      }
    }
  }

  /** The quotient is the q with q * n <= x < q * n + n. */
  lemma DivUnique(x: int, n: int, q: int)
    requires n >= 1 && q * n <= x < q * n + n
    ensures x / n == q
  {
    var d := x / n - q;
    assert x == (x / n) * n + x % n;
    assert (x / n) * n == q * n + d * n;
    MulOrder(d, 1, n);
    MulOrder(-1, d, n);
  }

  /** Multiplying by a positive n keeps the order. */
  lemma MulOrder(a: int, b: int, n: int)
    requires n >= 1
    ensures a >= b ==> a * n >= b * n
  {
    if a >= b {
      assert a * n - b * n == (a - b) * n;
    }
  }

  lemma DivShift(a: nat, n: nat)
    requires n >= 1
    ensures (a + n) / n == a / n + 1
  {
    var q := a / n;
    assert a == q * n + a % n;
    assert (q + 1) * n == q * n + n;
    DivUnique(a + n, n, q + 1);
  }

  /** The chunk length setUp computes: count / Operations, truncated. */
  function ChunkLength(count: nat): nat
  {
    count / Operations
  }

  /** With at least Operations keys the split gives between 100 and 199
      MGETs; with a multiple of Operations keys it gives exactly 100. */
  lemma {:induction false} AboutOperationsChunks<T>(keys: seq<T>)
    requires |keys| >= Operations
    ensures Operations <= |Chunks(keys, ChunkLength(|keys|))| < 2 * Operations
    ensures |keys| % Operations == 0 ==> |Chunks(keys, ChunkLength(|keys|))| == Operations
  {
    var n := ChunkLength(|keys|);
    var r := |keys| % Operations;
    assert |keys| == Operations * n + r;
    ChunkCount(keys, n);
    CeilOfSplit(n, r);
  }

  /** ceil((100 n + r) / n) for 0 <= r < 100 lies in [100, 200), and is 100
      when r is 0. */
  lemma CeilOfSplit(n: nat, r: nat)
    requires n >= 1 && r < 100
    ensures 100 <= (100 * n + r + n - 1) / n < 200
    ensures r == 0 ==> (100 * n + r + n - 1) / n == 100
  {
    var y := r + n - 1;
    var q := y / n;
    assert y == q * n + y % n;
    assert (100 + q) * n == 100 * n + q * n;
    DivUnique(100 * n + y, n, 100 + q);
    MulOrder(q, 100, n);
    if r == 0 {
      DivUnique(y, n, 0);
    }
  }

  /** One MGET per chunk, in order. */
  function Mgets(chunks: seq<seq<string>>): (commands: seq<Command<string>>)
    ensures |commands| == |chunks|
    ensures forall k :: 0 <= k < |chunks| ==> commands[k] == Mget(chunks[k])
  {
    if chunks == [] then [] else [Mget(chunks[0])] + Mgets(chunks[1..])
  }

  /** BenchmarkMget warms up with exactly one round of Revolutions calls. */
  lemma MgetWarmup()
    ensures Coordination.WarmupCalls(Warmup, Revolutions) == Some(Revolutions)
  {}

  class BenchmarkMget {
    const predis: Client<string>
    const phpredis: Client<string>
    const relayNoCache: Client<string>
    const relay: Client<string>
    var keyChunks: seq<seq<string>>

    /** The four connections setUpClients opens are distinct. */
    predicate Valid()
    {
      && predis != phpredis && predis != relayNoCache && predis != relay
      && phpredis != relayNoCache && phpredis != relay && relayNoCache != relay
    }

    constructor ()
      ensures Valid() && keyChunks == []
      ensures fresh(predis) && fresh(phpredis) && fresh(relayNoCache) && fresh(relay)
      ensures predis.sent == [] && phpredis.sent == [] && relayNoCache.sent == [] && relay.sent == []
    {
      predis := new Client();
      phpredis := new Client();
      relayNoCache := new Client();
      relay := new Client();
      keyChunks := [];
    }

    function ClientFor(kind: ClientKind): Client<string>
    {
      match kind
      case Predis => predis
      case PhpRedis => phpredis
      case RelayNoCache => relayNoCache
      case Relay => relay
    }

    /** setUp with the key list loadJson returns: the keys in chunks of
        count / Operations; array_chunk throws when that is below 1. */
    method SetUp(keys: seq<string>) returns (r: Outcome<ChunkError>)
      modifies this
      ensures r.Pass? <==> |keys| >= Operations
      ensures r.Pass? ==> keyChunks == Chunks(keys, ChunkLength(|keys|))
      ensures r.Fail? ==> keyChunks == old(keyChunks)
    {
      var length := |keys| / Operations;
      var chunks := ArrayChunk(keys, length);
      if chunks.Err? {
        return Fail(chunks.error);
      }
      keyChunks := chunks.value;
      return Pass;
    }

    /** doBenchmark: one MGET per chunk, in chunk order; returns the number
        of chunks. */
    method DoBenchmark(client: Client<string>) returns (count: int)
      modifies client
      ensures client.sent == old(client.sent) + Mgets(keyChunks)
      ensures count == |keyChunks|
    {
      var i := 0;
      while i < |keyChunks|
        invariant 0 <= i <= |keyChunks|
        invariant client.sent == old(client.sent) + Mgets(keyChunks[..i])
      {
        assert Mgets(keyChunks[..i + 1]) == Mgets(keyChunks[..i]) + [Mget(keyChunks[i])];
        client.Send(Mget(keyChunks[i]));
        i := i + 1;
      }
      assert keyChunks[..i] == keyChunks;
      return |keyChunks|;
    }

    /** benchmarkPredis, benchmarkPhpRedis, benchmarkRelayNoCache and
        benchmarkRelay: doBenchmark on the matching connection; the other
        three see nothing. */
    method RunClient(kind: ClientKind) returns (count: int)
      requires Valid()
      modifies ClientFor(kind)
      ensures ClientFor(kind).sent == old(ClientFor(kind).sent) + Mgets(keyChunks)
      ensures count == |keyChunks|
      ensures forall other: ClientKind :: other != kind ==> ClientFor(other).sent == old(ClientFor(other).sent)
    {
      count := DoBenchmark(ClientFor(kind));
    }
  }
}

=== FILE: reporting.dfy ===
/** The CliReporter of benchmarks/Support/CliReporter.php (with the
    verbose flag of its Reporter base class). The printed text and the
    table layout are output only; the model records what each callback
    would print as an Output value appended to a log, and computes the
    figures of the comparison tables. */
module Reporting {
  import opened Results
  import opened HumanFormat
  import opened Measurements

  /** What the tables read from one subject. */
  datatype Figures = Figures(client: string, ms: real, memory: real, bytes: real, ops: real, rstdev: real)

  /** One row of finishedSubjects' table (Client, Memory, Network, IOPS,
      rstdev, Time, Change, Factor), before cell formatting. */
  datatype TimeRow = TimeRow(
    client: string, memory: real, network: real, ops: real, rstdev: real, ms: real,
    change: real, factor: real)

  /** One row of finishedSubjectsConcurrent's table (Workers, Client,
      Memory, Network, IOPS, IOPS/Worker, Change, Factor). */
  datatype OpsRow = OpsRow(
    workers: int, client: string, memory: real, network: real, ops: real, opsPerWorker: real,
    change: real, factor: real)

  /** The figures of finishedTimedSubject's "Executed ... (x/sec)" line. */
  datatype TimedSummary = TimedSummary(
    operations: int, operationsShown: Human, name: string, client: string,
    millis: real, rate: real, rateShown: Human)

  datatype Output =
    | IterationLine(iteration: IterationMsg)
    | SubjectLine(subject: SubjectSummary)
    | TimedLine(timed: TimedSummary)
    | TimeTable(timeRows: seq<TimeRow>)
    | OpsTable(opsRows: seq<OpsRow>)

  /** The medians a table row shows for one subject; only opsMedian can
      throw. */
  function FiguresOf(subject: Subject, stats: Statistics): (r: Result<Figures, ReportError>)
    reads subject, BenchmarksOf(subject.iterations)
    ensures r.Ok? <==> subject.OpsMedian(stats).Ok?
    ensures r.Ok? ==> r.value == Figures(subject.Client(), subject.MsMedian(stats), subject.MemoryMedian(stats),
                                         subject.BytesMedian(stats), subject.OpsMedian(stats).value, subject.MsRstDev(stats))
  {
    match subject.OpsMedian(stats)
    case Err(e) => Err(e)
    case Ok(ops) =>
      Ok(Figures(subject.Client(), subject.MsMedian(stats), subject.MemoryMedian(stats),
                 subject.BytesMedian(stats), ops, subject.MsRstDev(stats)))
  }

  /** A row carries its subject's figures unchanged. */
  ghost predicate Carries(row: TimeRow, f: Figures)
  {
    row.client == f.client && row.memory == f.memory && row.network == f.bytes
    && row.ops == f.ops && row.rstdev == f.rstdev && row.ms == f.ms
  }

  /** One row of finishedSubjects' table against the baseline time: the
      first row has factor 1 and change 0; every other row has change
      (ms / base - 1) * 100 and the reciprocal ratio base / ms as factor. */
  ghost predicate TimeRowFits(row: TimeRow, f: Figures, base: real, first: bool)
  {
    && f.ms != 0.0 && base != 0.0 && Carries(row, f)
    && if first then row.factor == 1.0 && row.change == 0.0
       else row.change == (f.ms / base - 1.0) * 100.0 && row.factor == base / f.ms
  }

  /** The table of finishedSubjects over subjects in the order given: one
      row per subject, the first subject's time as the baseline. */
  ghost predicate IsTimeTable(rows: seq<TimeRow>, figs: seq<Figures>)
  {
    && |figs| > 0 && |rows| == |figs|
    && forall k :: 0 <= k < |figs| ==> TimeRowFits(rows[k], figs[k], figs[0].ms, k == 0)
  }

  /** One row of finishedSubjectsConcurrent's table against the baseline
      throughput: IOPS/Worker is ops / workers; the first row has factor 1
      and change 0; every other row has factor ops / base and change
      (ops / base - 1) * 100. */
  ghost predicate OpsRowFits(row: OpsRow, f: Figures, workers: int, base: real, first: bool)
  {
    && workers != 0 && base != 0.0
    && row.workers == workers && row.client == f.client
    && row.memory == f.memory && row.network == f.bytes && row.ops == f.ops
    && row.opsPerWorker * workers as real == f.ops
    && if first then row.factor == 1.0 && row.change == 0.0
       else row.factor == f.ops / base && row.change == (f.ops / base - 1.0) * 100.0
  }

  /** The table of finishedSubjectsConcurrent: one row per subject, the
      first subject's throughput as the baseline. */
  ghost predicate IsOpsTable(rows: seq<OpsRow>, figs: seq<Figures>, workers: int)
  {
    && |figs| > 0 && |rows| == |figs|
    && forall k :: 0 <= k < |figs| ==> OpsRowFits(rows[k], figs[k], workers, figs[0].ops, k == 0)
  }

  /** The order Subjects::sortByTime gives: ascending median time. */
  ghost predicate SortedByTime(figs: seq<Figures>)
  {
    forall j, k :: 0 <= j < k < |figs| ==> figs[j].ms <= figs[k].ms
  }

  /** The order Subjects::sortByOpsPerSec gives: descending throughput. */
  ghost predicate SortedByOps(figs: seq<Figures>)
  {
    forall j, k :: 0 <= j < k < |figs| ==> figs[j].ops >= figs[k].ops
  }

  lemma Reciprocal(ms: real, base: real)
    requires ms != 0.0 && base != 0.0
    ensures 1.0 / (ms / base) == base / ms
  {}

  lemma RatioAtMostOne(a: real, b: real)
    requires 0.0 < a <= b
    ensures 0.0 < a / b <= 1.0
  {}

  lemma RatioAtLeastOne(a: real, b: real)
    requires 0.0 < b <= a
    ensures a / b >= 1.0
  {}

  lemma RatioBelowOne(a: real, b: real)
    requires 0.0 <= a <= b && b > 0.0
    ensures 0.0 <= a / b <= 1.0
  {}

  /** With subjects in sortByTime order and a positive baseline, the
      baseline is the fastest subject: no factor exceeds 1 and no change is
      negative. */
  lemma {:induction false} TimeTableBaselineFastest(rows: seq<TimeRow>, figs: seq<Figures>)
    requires IsTimeTable(rows, figs) && SortedByTime(figs) && figs[0].ms > 0.0
    ensures forall k :: 0 <= k < |rows| ==> 0.0 < rows[k].factor <= 1.0 && rows[k].change >= 0.0
  {
    forall k | 1 <= k < |rows|
      ensures 0.0 < rows[k].factor <= 1.0 && rows[k].change >= 0.0
    {
      assert TimeRowFits(rows[k], figs[k], figs[0].ms, false);
      assert figs[0].ms <= figs[k].ms;
      RatioAtMostOne(figs[0].ms, figs[k].ms);
      RatioAtLeastOne(figs[k].ms, figs[0].ms);
    }
  }

  /** With subjects in sortByOpsPerSec order, a positive baseline and no
      negative throughput, the baseline is the fastest subject: every factor
      lies in [0, 1] and every change in [-100, 0]. */
  lemma {:induction false} OpsTableBaselineFastest(rows: seq<OpsRow>, figs: seq<Figures>, workers: int)
    requires IsOpsTable(rows, figs, workers) && SortedByOps(figs) && figs[0].ops > 0.0
    requires forall k :: 0 <= k < |figs| ==> figs[k].ops >= 0.0
    ensures forall k :: 0 <= k < |rows| ==>
      0.0 <= rows[k].factor <= 1.0 && -100.0 <= rows[k].change <= 0.0
  {
    forall k | 1 <= k < |rows|
      ensures 0.0 <= rows[k].factor <= 1.0 && -100.0 <= rows[k].change <= 0.0
    {
      assert OpsRowFits(rows[k], figs[k], workers, figs[0].ops, false);
      assert figs[0].ops >= figs[k].ops;
      RatioBelowOne(figs[k].ops, figs[0].ops);
    }
  }

  /** finishedTimedSubject's figures: the operation count and the rate
      operations / (millis / 1000), both through humanNumber. */
  function TimedSummaryOf(name: string, client: string, operations: int, millis: real): (r: Result<TimedSummary, ReportError>)
    ensures r.Ok? <==>
      && millis != 0.0
      && HumanNumber(operations as real).Ok?
      && HumanNumber(PerSecond(operations as real, millis).value).Ok?
    ensures r.Ok? ==>
      && r.value.operations == operations && r.value.millis == millis
      && r.value.name == name && r.value.client == client
      && r.value.rate == PerSecond(operations as real, millis).value
    ensures r.Ok? ==>
      && r.value.operationsShown == HumanNumber(operations as real).value
      && r.value.rateShown == HumanNumber(PerSecond(operations as real, millis).value).value
  {
    var operationsShown := HumanNumber(operations as real);
    var rate := PerSecond(operations as real, millis);
    if operationsShown.Err? then Err(Format(operationsShown.error))
    else if rate.Err? then Err(rate.error)
    else
      var rateShown := HumanNumber(rate.value);
      if rateShown.Err? then Err(Format(rateShown.error))
      else Ok(TimedSummary(operations, operationsShown.value, name, client, millis, rate.value, rateShown.value))
  }

  /** CliReporter keeps no state besides the verbose flag; each callback
      returns what it prints: Ok(None) when it prints nothing, Err when PHP
      would throw while building the text. */
  class CliReporter {
    const verbose: bool

    constructor (verbose: bool)
      ensures this.verbose == verbose
    {
      this.verbose := verbose;
    }

    /** finishedIteration: silent unless verbose, then the iteration line. */
    function FinishedIteration(iteration: Iteration, operation: string, client: string): (r: Result<Option<Output>, ReportError>)
      reads iteration.subject.benchmark
      ensures !verbose ==> r == Ok(None)
      ensures verbose ==> (r.Ok? <==> iteration.FinishedIterationMsg(operation, client).Ok?)
      ensures verbose && r.Ok? ==> r == Ok(Some(IterationLine(iteration.FinishedIterationMsg(operation, client).value)))
    {
      if !verbose then Ok(None)
      else
        var line := iteration.FinishedIterationMsg(operation, client);
        if line.Err? then Err(line.error) else Ok(Some(IterationLine(line.value)))
    }

    /** finishedSubject: silent unless verbose, then the subject line. */
    function FinishedSubject(subject: Subject, stats: Statistics): (r: Result<Option<Output>, ReportError>)
      reads subject, subject.benchmark
      ensures !verbose ==> r == Ok(None)
      ensures verbose ==> (r.Ok? <==> subject.Summary(stats).Ok?)
      ensures verbose && r.Ok? ==> r == Ok(Some(SubjectLine(subject.Summary(stats).value)))
    {
      if !verbose then Ok(None)
      else
        var line := subject.Summary(stats);
        if line.Err? then Err(line.error) else Ok(Some(SubjectLine(line.value)))
    }

    /** finishedTimedSubject: silent unless verbose, then the rate line. */
    function FinishedTimedSubject(subject: Subject, operations: int, millis: real): (r: Result<Option<Output>, ReportError>)
      ensures !verbose ==> r == Ok(None)
      ensures verbose ==> (r.Ok? <==> TimedSummaryOf(subject.benchmark.name, subject.Client(), operations, millis).Ok?)
      ensures verbose && r.Ok? ==>
        r == Ok(Some(TimedLine(TimedSummaryOf(subject.benchmark.name, subject.Client(), operations, millis).value)))
    {
      if !verbose then Ok(None)
      else
        var line := TimedSummaryOf(subject.benchmark.name, subject.Client(), operations, millis);
        if line.Err? then Err(line.error) else Ok(Some(TimedLine(line.value)))
    }

    /** finishedSubjects: the comparison table over the subjects in the
        order given (sortByTime's), whatever the verbose flag. PHP 8 throws
        on the divisions when the baseline or a subject's median time is
        zero, and when a subject's opsMedian does; an empty list has no
        baseline. */
    method FinishedSubjects(subjects: seq<Subject>, stats: Statistics) returns (r: Result<Output, ReportError>, ghost figs: seq<Figures>)
      ensures r.Ok? <==>
        && subjects != []
        && (forall k :: 0 <= k < |subjects| ==> subjects[k].OpsMedian(stats).Ok?)
        && (forall k :: 0 <= k < |subjects| ==> subjects[k].MsMedian(stats) != 0.0)
      ensures subjects == [] ==> r == Err(NoSubjects)
      ensures r.Ok? ==>
        && |figs| == |subjects|
        && (forall k :: 0 <= k < |subjects| ==> FiguresOf(subjects[k], stats) == Ok(figs[k]))
        && r.value.TimeTable? && IsTimeTable(r.value.timeRows, figs)
    {
      figs := [];
      if subjects == [] {
        return Err(NoSubjects), figs;
      }
      var base := subjects[0].MsMedian(stats);
      var rows: seq<TimeRow> := [];
      var i := 0;
      while i < |subjects|
        invariant 0 <= i <= |subjects| && |rows| == i && |figs| == i
        invariant subjects[0].MsMedian(stats) == base
        invariant i > 0 ==> figs[0].ms == base
        invariant forall k :: 0 <= k < i ==>
          FiguresOf(subjects[k], stats) == Ok(figs[k]) && TimeRowFits(rows[k], figs[k], base, k == 0)
      {
        var subject := subjects[i];
        var msMedian := subject.MsMedian(stats);
        if base == 0.0 || msMedian == 0.0 {
          return Err(DivisionByZero), figs;
        }
        var diff := -(1.0 - (msMedian / base)) * 100.0;
        var multiple := 1.0 / (msMedian / base);
        Reciprocal(msMedian, base);
        var f := FiguresOf(subject, stats);
        if f.Err? {
          return Err(f.error), figs;
        }
        var factor := if i == 0 then 1.0 else multiple;
        var change := if i == 0 then 0.0 else diff;
        var row := TimeRow(f.value.client, f.value.memory, f.value.bytes, f.value.ops, f.value.rstdev, msMedian, change, factor);
        assert TimeRowFits(row, f.value, base, i == 0);
        rows := rows + [row];
        figs := figs + [f.value];
        i := i + 1;
      }
      return Ok(TimeTable(rows)), figs;
    }

    /** finishedSubjectsConcurrent: the comparison table over the subjects
        in the order given (sortByOpsPerSec's), whatever the verbose flag.
        PHP 8 throws when an opsMedian does, and on the divisions when the
        worker count or the baseline throughput is zero. */
    method FinishedSubjectsConcurrent(subjects: seq<Subject>, workers: int, stats: Statistics) returns (r: Result<Output, ReportError>, ghost figs: seq<Figures>)
      ensures r.Ok? <==>
        && subjects != [] && workers != 0
        && (forall k :: 0 <= k < |subjects| ==> subjects[k].OpsMedian(stats).Ok?)
        && subjects[0].OpsMedian(stats).value != 0.0
      ensures subjects == [] ==> r == Err(NoSubjects)
      ensures r.Ok? ==>
        && |figs| == |subjects|
        && (forall k :: 0 <= k < |subjects| ==> FiguresOf(subjects[k], stats) == Ok(figs[k]))
        && r.value.OpsTable? && IsOpsTable(r.value.opsRows, figs, workers)
    {
      figs := [];
      if subjects == [] {
        return Err(NoSubjects), figs;
      }
      var baseOps := subjects[0].OpsMedian(stats);
      if baseOps.Err? {
        return Err(baseOps.error), figs;
      }
      var base := baseOps.value;
      var rows: seq<OpsRow> := [];
      var i := 0;
      while i < |subjects|
        invariant 0 <= i <= |subjects| && |rows| == i && |figs| == i
        invariant subjects[0].OpsMedian(stats) == Ok(base)
        invariant i > 0 ==> figs[0].ops == base
        invariant forall k :: 0 <= k < i ==>
          FiguresOf(subjects[k], stats) == Ok(figs[k]) && OpsRowFits(rows[k], figs[k], workers, base, k == 0)
      {
        var subject := subjects[i];
        var f := FiguresOf(subject, stats);
        if f.Err? {
          return Err(f.error), figs;
        }
        if workers == 0 || base == 0.0 {
          return Err(DivisionByZero), figs;
        }
        var opsMedian := f.value.ops;
        var opsPerWorker := opsMedian / workers as real;
        QuotientTimesDivisor(opsMedian, workers as real);
        var diff := -(1.0 - (opsMedian / base)) * 100.0;
        var factor := if i == 0 then 1.0 else opsMedian / base;
        var change := if i == 0 then 0.0 else diff;
        var row := OpsRow(workers, f.value.client, f.value.memory, f.value.bytes, opsMedian, opsPerWorker, change, factor);
        assert OpsRowFits(row, f.value, workers, base, i == 0);
        rows := rows + [row];
        figs := figs + [f.value];
        i := i + 1;
      }
      return Ok(OpsTable(rows)), figs;
    }
  }
}

=== FILE: results.dfy ===
/** Failure-carrying result types shared by the model. PHP throws (a
    DivisionByZeroError, a ValueError) or warns where these carry an error. */
module Results {

  datatype Option<+T> = None | Some(value: T)

  datatype Result<+T, +E> = Ok(value: T) | Err(error: E)

  /** Success or failure of an operation that produces no value. */
  datatype Outcome<+E> = Pass | Fail(error: E)
}

=== FILE: runner.dfy ===
/** The Runner of benchmarks/Support/Runner.php: the sequential and the
    forking measurement paths, the Redis set through which forked workers
    publish their figures, and the dispatch over benchmark methods.

    Everything the runner observes from outside (hrtime, peak memory,
    Redis' network counters, pcntl_fork's result, uniqid) is an input:
    an Environment per benchmark method. Each call of a benchmark method is
    one step of an abstract counter. Reporter notifications are an event
    log. */
module Coordination {
  import opened Results
  import opened Workload
  import opened Measurements

  /** One worker's published figures: [getmypid(), nanos, peak memory]. */
  datatype WorkerRecord = WorkerRecord(pid: int, nanos: int, peakMemory: int)

  /** What one timed window of the sequential path observes. */
  datatype Probe = Probe(startNanos: int, endNanos: int, peakMemory: int, bytesIn: int, bytesOut: int)

  /** A process id: pcntl_fork gives the parent a positive one (0 is what
      the child itself sees). */
  type Pid = x: int | x > 0 witness 1

  /** pcntl_fork as the parent sees it: a child pid, or a negative result. */
  datatype ForkResult = Forked(pid: Pid) | ForkFailed

  /** What a forked worker observes around its timed loops. */
  datatype WorkerClock = WorkerClock(startNanos: int, endNanos: int, peakMemory: int)

  /** total_net_input_bytes and total_net_output_bytes of INFO STATS. */
  datatype NetworkStats = NetworkStats(inputBytes: int, outputBytes: int)

  /** The outside world as one benchmark method's run sees it: the k-th
      sequential window, the k-th fork attempt and the worker it starts, and
      the network counters before the forks and after the waits. */
  datatype Environment = Environment(
    probe: nat -> Probe,
    fork: nat -> ForkResult,
    worker: nat -> WorkerClock,
    before: NetworkStats,
    after: NetworkStats)

  /** Reporter notifications, in the order the runner makes them. */
  datatype Event =
    | BenchmarkStarted(benchmark: Benchmark)
    | IterationFinished(iteration: Iteration)
    | SubjectFinished(subject: Subject)
    | SubjectsFinished(subjects: seq<Subject>)

  /** How a run ends: normally, through exit(status), or never. */
  datatype Status = Completed | Exited(code: int) | Diverged

  /** The set of benchmark methods one benchmark class contributes. */
  datatype Plan = Plan(benchmark: Benchmark, methods: seq<string>)

  /** The Redis key under which the workers of one method publish. */
  function RunKey(runId: string, methodName: string): string
  {
    "benchmark_run:" + runId + ":" + methodName
  }

  const KeyPrefix: string := "benchmark_run:"

  lemma RunKeyShape(runId: string, methodName: string)
    ensures RunKey(runId, methodName) == KeyPrefix + runId + ":" + methodName
    ensures |RunKey(runId, methodName)| == |KeyPrefix| + |runId| + 1 + |methodName|
    ensures RunKey(runId, methodName)[..|KeyPrefix|] == KeyPrefix
    ensures RunKey(runId, methodName)[|KeyPrefix|..|KeyPrefix| + |runId|] == runId
    ensures RunKey(runId, methodName)[|KeyPrefix| + |runId|] == ':'
    ensures RunKey(runId, methodName)[|KeyPrefix| + |runId| + 1..] == methodName
  {}

  /** Within one run, distinct methods publish under distinct keys. */
  lemma RunKeySeparatesMethods(runId: string, m1: string, m2: string)
    requires RunKey(runId, m1) == RunKey(runId, m2)
    ensures m1 == m2
  {
    RunKeyShape(runId, m1);
    RunKeyShape(runId, m2);
  }

  /** Run ids without ':' (uniqid gives hexadecimal digits) keep the keys of
      different runs apart. */
  lemma RunKeySeparatesRuns(r1: string, m1: string, r2: string, m2: string)
    requires ':' !in r1 && ':' !in r2
    requires RunKey(r1, m1) == RunKey(r2, m2)
    ensures r1 == r2 && m1 == m2
  {
    var key := RunKey(r1, m1);
    var p := |KeyPrefix|;
    RunKeyShape(r1, m1);
    RunKeyShape(r2, m2);
    if |r1| < |r2| {
      assert false;
    } else if |r2| < |r1| {
      assert false;
    }
    assert r1 == key[p..p + |r1|] == r2;
  }

  /** SMEMBERS of a key that was never written is empty. */
  function Stored(store: map<string, set<WorkerRecord>>, key: string): set<WorkerRecord>
  {
    if key in store then store[key] else {}
  }

  /** No record appears twice: SMEMBERS lists a set. */
  predicate Distinct(records: seq<WorkerRecord>)
  {
    forall j, k :: 0 <= j < k < |records| ==> records[j] != records[k]
  }

  /** $total_nanos after the fold. */
  function SumNanos(records: seq<WorkerRecord>): int
  {
    if records == [] then 0 else SumNanos(records[..|records| - 1]) + records[|records| - 1].nanos
  }

  function Max(a: int, b: int): int
  {
    if a < b then b else a
  }

  /** $max_peak_mem after the fold, which starts from 0. */
  function MaxPeak(records: seq<WorkerRecord>): int
  {
    if records == [] then 0 else Max(records[|records| - 1].peakMemory, MaxPeak(records[..|records| - 1]))
  }

  /** The aggregated peak is 0 or one of the published peaks, and no
      published peak exceeds it. */
  lemma {:induction false} MaxPeakIsMaximum(records: seq<WorkerRecord>)
    ensures MaxPeak(records) >= 0
    ensures forall k :: 0 <= k < |records| ==> records[k].peakMemory <= MaxPeak(records)
    ensures MaxPeak(records) == 0 || exists k :: 0 <= k < |records| && records[k].peakMemory == MaxPeak(records)
  {
    if records != [] {
      var init := records[..|records| - 1];
      MaxPeakIsMaximum(init);
      assert forall k :: 0 <= k < |init| ==> records[k] == init[k];
      if MaxPeak(records) != 0 && MaxPeak(records) != records[|records| - 1].peakMemory {
        var k :| 0 <= k < |init| && init[k].peakMemory == MaxPeak(init);
        assert records[k].peakMemory == MaxPeak(records);
      }
    }
  }

  lemma {:induction false} SumNanosAppend(u: seq<WorkerRecord>, v: seq<WorkerRecord>)
    ensures SumNanos(u + v) == SumNanos(u) + SumNanos(v)
    decreases |v|
  {
    if v == [] {
      assert u + v == u;
    } else {
      var n := |v| - 1;
      assert (u + v)[..|u + v| - 1] == u + v[..n];
      SumNanosAppend(u, v[..n]);
    }
  }

  lemma {:induction false} MaxPeakAppend(u: seq<WorkerRecord>, v: seq<WorkerRecord>)
    ensures MaxPeak(u + v) == Max(MaxPeak(u), MaxPeak(v))
    decreases |v|
  {
    if v == [] {
      assert u + v == u;
      MaxPeakIsMaximum(u);
    } else {
      var n := |v| - 1;
      assert (u + v)[..|u + v| - 1] == u + v[..n];
      MaxPeakAppend(u, v[..n]);
    }
  }

  lemma RemoveAt(b: seq<WorkerRecord>, j: nat)
    requires j < |b|
    ensures b == b[..j] + [b[j]] + b[j + 1..]
    ensures multiset(b[..j] + b[j + 1..]) == multiset(b) - multiset{b[j]}
  {
    assert b == b[..j] + [b[j]] + b[j + 1..];
  }

  lemma SumNanosRemove(b: seq<WorkerRecord>, j: nat)
    requires j < |b|
    ensures SumNanos(b) == SumNanos(b[..j] + b[j + 1..]) + b[j].nanos
  {
    RemoveAt(b, j);
    SumNanosAppend(b[..j] + [b[j]], b[j + 1..]);
    SumNanosAppend(b[..j], [b[j]]);
    SumNanosAppend(b[..j], b[j + 1..]);
    assert [b[j]][..0] == [];
  }

  lemma MaxPeakRemove(b: seq<WorkerRecord>, j: nat)
    requires j < |b|
    ensures MaxPeak(b) == Max(b[j].peakMemory, MaxPeak(b[..j] + b[j + 1..]))
  {
    RemoveAt(b, j);
    MaxPeakAppend(b[..j] + [b[j]], b[j + 1..]);
    MaxPeakAppend(b[..j], [b[j]]);
    MaxPeakAppend(b[..j], b[j + 1..]);
    assert [b[j]][..0] == [];
    MaxPeakIsMaximum(b[..j] + b[j + 1..]);
  }

  lemma FindRecord(b: seq<WorkerRecord>, x: WorkerRecord) returns (j: nat)
    requires x in multiset(b)
    ensures j < |b| && b[j] == x
  {
    assert x in b;
    j :| 0 <= j < |b| && b[j] == x;
  }

  /** Dropping one equal record from each of two enumerations of the same
      records leaves two enumerations of the same records. */
  lemma DropMatching(a: seq<WorkerRecord>, i: nat, b: seq<WorkerRecord>, j: nat)
    requires multiset(a) == multiset(b)
    requires i < |a| && j < |b| && a[i] == b[j]
    ensures multiset(a[..i] + a[i + 1..]) == multiset(b[..j] + b[j + 1..])
  {
    RemoveAt(a, i);
    RemoveAt(b, j);
  }

  /** The fold does not depend on the order SMEMBERS lists the records in:
      any two enumerations of the same records aggregate alike. */
  lemma {:induction false} AggregateOrderFree(a: seq<WorkerRecord>, b: seq<WorkerRecord>)
    requires multiset(a) == multiset(b)
    ensures SumNanos(a) == SumNanos(b) && MaxPeak(a) == MaxPeak(b)
    decreases |a|
  {
    if a == [] {
      assert |b| == |multiset(b)| == 0;
    } else {
      var i := |a| - 1;
      assert a[i] in multiset(b) by {
        assert a[i] in multiset(a);
      }
      var j := FindRecord(b, a[i]);
      DropMatching(a, i, b, j);
      AggregateOrderFree(a[..i] + a[i + 1..], b[..j] + b[j + 1..]);
      SumNanosRemove(a, i);
      MaxPeakRemove(a, i);
      SumNanosRemove(b, j);
      MaxPeakRemove(b, j);
    }
  }

  /** The aggregation loop of runMethodConcurrent. */
  method Aggregate(records: seq<WorkerRecord>) returns (totalNanos: int, maxPeakMemory: int)
    ensures totalNanos == SumNanos(records)
    ensures maxPeakMemory == MaxPeak(records)
  {
    totalNanos, maxPeakMemory := 0, 0;
    var i := 0;
    while i < |records|
      invariant 0 <= i <= |records|
      invariant totalNanos == SumNanos(records[..i])
      invariant maxPeakMemory == MaxPeak(records[..i])
    {
      assert records[..i + 1][..i] == records[..i];
      totalNanos := totalNanos + records[i].nanos;
      maxPeakMemory := Max(records[i].peakMemory, maxPeakMemory);
      i := i + 1;
    }
    assert records[..i] == records;
  }

  /** Calls the sequential warmup makes, or None when it never ends. Both
      loops reuse $i: a pass leaves $i at Revolutions + 2, so a second pass
      starts from that value and repeats forever once Warmup exceeds it. */
  function WarmupCalls(warmup: nat, revolutions: nat): Option<nat>
  {
    if warmup == 0 then Some(0)
    else if warmup <= revolutions + 2 then Some(revolutions)
    else None
  }

  /** The warmup loop of runMethod as written. The loop's only state is $i
      and the call counter; when a pass starts from the $i of the previous
      pass, every later pass repeats it, and the loop is reported as
      diverging. */
  method Warmup(warmup: nat, revolutions: nat) returns (performed: nat, diverges: bool)
    ensures diverges <==> WarmupCalls(warmup, revolutions).None?
    ensures !diverges ==> performed == WarmupCalls(warmup, revolutions).value
  {
    performed := 0;
    diverges := false;
    var i := 0;
    var previous := -1;
    ghost var passes := 0;
    while i < warmup
      invariant passes > 0 ==> warmup > 0
      invariant passes == 2 ==> warmup > revolutions + 2
      invariant
        || (passes == 0 && i == 0 && previous == -1 && performed == 0)
        || (passes == 1 && i == revolutions + 2 && previous == 0 && performed == revolutions)
        || (passes == 2 && i == revolutions + 2 && previous == revolutions + 2 && performed == 2 * revolutions)
      decreases 2 - passes
    {
      if i == previous {
        diverges := true;
        return;
      }
      previous := i;
      i := 1;
      while i <= revolutions
        invariant 1 <= i <= revolutions + 1
        invariant performed == passes * revolutions + i - 1
      {
        performed := performed + 1;
        i := i + 1;
      }
      i := i + 1;
      passes := passes + 1;
    }
  }

  /** Because the inner loop leaves $i past Warmup, a warmup of up to
      Revolutions + 2 passes makes one pass only: it matches Warmup *
      Revolutions calls only for a single pass or no revolutions. */
  lemma WarmupSinglePass(warmup: nat, revolutions: nat)
    requires 1 <= warmup <= revolutions + 2
    ensures WarmupCalls(warmup, revolutions) == Some(revolutions)
    ensures WarmupCalls(warmup, revolutions) == Some(warmup * revolutions) <==> warmup == 1 || revolutions == 0
  {
    if warmup > 1 && revolutions > 0 {
      assert warmup * revolutions >= 2 * revolutions;
    }
  }

  /** BenchmarkGet (Warmup 0, Revolutions 50) warms up with no call. */
  lemma BenchmarkGetWarmup()
    ensures WarmupCalls(0, 50) == Some(0)
  {}

  /** One timed window of runMethod: `for ($r = 1; $r <= Revolutions; $r++)`. */
  method TimedWindow(revolutions: nat) returns (performed: nat)
    ensures performed == revolutions
  {
    performed := 0;
    var r := 1;
    while r <= revolutions
      invariant 1 <= r <= revolutions + 1
      invariant performed == r - 1
    {
      performed := performed + 1;
      r := r + 1;
    }
  }

  function Millis(nanos: int): real
  {
    nanos as real / 1000000.0
  }

  /** The Iteration the k-th sequential window records. */
  function Measured(p: Probe, subject: Subject): Iteration
  {
    Iteration(Millis(p.endNanos - p.startNanos), p.peakMemory, p.bytesIn, p.bytesOut, subject)
  }

  /** The Iterations of the first n sequential windows, in order. */
  function MeasuredRun(probe: nat -> Probe, subject: Subject, n: nat): (its: seq<Iteration>)
    ensures |its| == n
  {
    if n == 0 then [] else MeasuredRun(probe, subject, n - 1) + [Measured(probe(n - 1), subject)]
  }

  /** The k-th recorded iteration comes from the k-th timed window. */
  lemma {:induction false} MeasuredRunWindows(probe: nat -> Probe, subject: Subject, n: nat)
    ensures forall k: nat :: k < n ==> MeasuredRun(probe, subject, n)[k] == Measured(probe(k), subject)
  {
    if n > 0 {
      MeasuredRunWindows(probe, subject, n - 1);
    }
  }

  lemma MeasuredRunStep(probe: nat -> Probe, subject: Subject, n: nat)
    ensures MeasuredRun(probe, subject, n + 1) == MeasuredRun(probe, subject, n) + [Measured(probe(n), subject)]
    ensures IterationEvents(MeasuredRun(probe, subject, n + 1))
      == IterationEvents(MeasuredRun(probe, subject, n)) + [IterationFinished(Measured(probe(n), subject))]
  {
    var its := MeasuredRun(probe, subject, n + 1);
    assert its[..|its| - 1] == MeasuredRun(probe, subject, n);
  }

  /** One finishedIteration notification per iteration, in order. */
  function IterationEvents(its: seq<Iteration>): (events: seq<Event>)
    ensures |events| == |its|
  {
    if its == [] then [] else IterationEvents(its[..|its| - 1]) + [IterationFinished(its[|its| - 1])]
  }

  /** The record the worker of the k-th fork publishes. */
  function PublishedBy(pid: int, clock: WorkerClock): WorkerRecord
  {
    WorkerRecord(pid, clock.endNanos - clock.startNanos, clock.peakMemory)
  }

  /** The first n fork attempts all succeed. */
  ghost predicate AllForked(env: Environment, n: nat)
  {
    forall k: nat :: k < n ==> env.fork(k).Forked?
  }

  /** The records the workers of the first n fork attempts publish. */
  ghost function Published(env: Environment, n: nat): set<WorkerRecord>
    requires AllForked(env, n)
  {
    if n == 0 then {} else Published(env, n - 1) + {PublishedBy(env.fork(n - 1).pid, env.worker(n - 1))}
  }

  class Runner {
    const runId: string
    const workers: int
    const verbose: bool
    /** The benchmark_run:* sets of this run on the Redis server. */
    var store: map<string, set<WorkerRecord>>
    /** Reporter notifications so far. */
    var events: seq<Event>
    /** Benchmark method calls made by this process. */
    var calls: nat

    /** The run id is uniqid()'s value. */
    constructor (runId: string, workers: int, verbose: bool)
      ensures this.runId == runId && this.workers == workers && this.verbose == verbose
      ensures store == map[] && events == [] && calls == 0
    {
      this.runId := runId;
      this.workers := workers;
      this.verbose := verbose;
      store := map[];
      events := [];
      calls := 0;
    }

    /** saveIteration: SADD of one record to the method's key. */
    method SaveIteration(methodName: string, record: WorkerRecord)
      modifies this
      ensures store == old(store)[RunKey(runId, methodName) := Stored(old(store), RunKey(runId, methodName)) + {record}]
      ensures events == old(events) && calls == old(calls)
    {
      var key := RunKey(runId, methodName);
      store := store[key := Stored(store, key) + {record}];
    }

    /** loadIterations: SMEMBERS of the same key, each member once, in an
        order the server chooses. */
    method LoadIterations(methodName: string) returns (records: seq<WorkerRecord>)
      ensures forall r :: r in records <==> r in Stored(store, RunKey(runId, methodName))
      ensures Distinct(records)
    {
      var members := Stored(store, RunKey(runId, methodName));
      var rest := members;
      records := [];
      while rest != {}
        invariant rest <= members
        invariant forall r :: r in records <==> r in members && r !in rest
        invariant Distinct(records)
        decreases rest
      {
        var r :| r in rest;
        records := records + [r];
        rest := rest - {r};
      }
    }

    /** The body of a forked worker: warmup, the timed loops, one published
        record, exit(0). Its calls happen in the child process. */
    method RunWorker(methodName: string, benchmark: Benchmark, pid: int, clock: WorkerClock)
      returns (warmupCalls: nat, timedCalls: nat)
      modifies this
      ensures warmupCalls == benchmark.warmup * benchmark.revolutions
      ensures timedCalls == benchmark.iterations * benchmark.revolutions
      ensures store == old(store)[RunKey(runId, methodName) := Stored(old(store), RunKey(runId, methodName)) + {PublishedBy(pid, clock)}]
      ensures events == old(events) && calls == old(calls)
    {
      warmupCalls, timedCalls := 0, 0;
      var i := 0;
      while i < benchmark.warmup * benchmark.revolutions
        invariant 0 <= i <= benchmark.warmup * benchmark.revolutions && warmupCalls == i
      {
        warmupCalls := warmupCalls + 1;
        i := i + 1;
      }
      i := 0;
      while i < benchmark.iterations
        invariant 0 <= i <= benchmark.iterations && timedCalls == i * benchmark.revolutions
      {
        var j := 0;
        while j < benchmark.revolutions
          invariant 0 <= j <= benchmark.revolutions && timedCalls == i * benchmark.revolutions + j
        {
          timedCalls := timedCalls + 1;
          j := j + 1;
        }
        i := i + 1;
      }
      SaveIteration(methodName, PublishedBy(pid, clock));
    }

    /** The measurement loop of runMethod: Iterations timed windows of
        exactly Revolutions calls each, one Iteration and one
        finishedIteration per window. */
    method MeasureWindows(subject: Subject, benchmark: Benchmark, env: Environment) returns (windowCalls: seq<nat>)
      modifies this, subject
      ensures |windowCalls| == benchmark.iterations
      ensures forall k :: 0 <= k < |windowCalls| ==> windowCalls[k] == benchmark.revolutions
      ensures calls == old(calls) + benchmark.iterations * benchmark.revolutions
      ensures subject.iterations == old(subject.iterations) + MeasuredRun(env.probe, subject, benchmark.iterations)
      ensures events == old(events) + IterationEvents(MeasuredRun(env.probe, subject, benchmark.iterations))
      ensures store == old(store)
    {
      windowCalls := [];
      var i := 0;
      while i < benchmark.iterations
        invariant 0 <= i <= benchmark.iterations
        invariant |windowCalls| == i && forall k :: 0 <= k < i ==> windowCalls[k] == benchmark.revolutions
        invariant calls == old(calls) + i * benchmark.revolutions
        invariant subject.iterations == old(subject.iterations) + MeasuredRun(env.probe, subject, i)
        invariant events == old(events) + IterationEvents(MeasuredRun(env.probe, subject, i))
        invariant store == old(store)
      {
        var probe := env.probe(i);
        var window := TimedWindow(benchmark.revolutions);
        calls := calls + window;
        assert (i + 1) * benchmark.revolutions == i * benchmark.revolutions + benchmark.revolutions;
        windowCalls := windowCalls + [window];
        var iteration := subject.AddIteration(Millis(probe.endNanos - probe.startNanos), probe.peakMemory, probe.bytesIn, probe.bytesOut);
        assert iteration == Measured(probe, subject);
        MeasuredRunStep(env.probe, subject, i);
        events := events + [IterationFinished(iteration)];
        i := i + 1;
      }
    }

    /** runMethod: the warmup, the measurement loop, and finishedSubject at
        the end; a warmup that never ends records nothing. */
    method RunMethod(subject: Subject, benchmark: Benchmark, env: Environment)
      returns (status: Status, windowCalls: seq<nat>)
      modifies this, subject
      ensures status == Diverged <==> WarmupCalls(benchmark.warmup, benchmark.revolutions).None?
      ensures status != Diverged ==> status == Completed
      ensures status == Diverged ==> subject.iterations == old(subject.iterations) && events == old(events)
      ensures status == Completed ==>
        && |windowCalls| == benchmark.iterations
        && (forall k :: 0 <= k < |windowCalls| ==> windowCalls[k] == benchmark.revolutions)
        && calls == old(calls) + WarmupCalls(benchmark.warmup, benchmark.revolutions).value
                    + benchmark.iterations * benchmark.revolutions
        && subject.iterations == old(subject.iterations) + MeasuredRun(env.probe, subject, benchmark.iterations)
        && events == old(events) + IterationEvents(MeasuredRun(env.probe, subject, benchmark.iterations))
                     + [SubjectFinished(subject)]
      ensures store == old(store)
    {
      windowCalls := [];
      var warm, diverges := Warmup(benchmark.warmup, benchmark.revolutions);
      calls := calls + warm;
      if diverges {
        return Diverged, windowCalls;
      }
      windowCalls := MeasureWindows(subject, benchmark, env);
      events := events + [SubjectFinished(subject)];
      return Completed, windowCalls;
    }

    /** runMethodConcurrent: `workers` fork attempts, exit(1) at the first
        failed one; each forked worker publishes one record; after the
        waits, the records under the method's key are folded into one
        Iteration with the network deltas, followed by finishedIteration and
        two finishedSubject notifications. */
    method RunMethodConcurrent(subject: Subject, benchmark: Benchmark, methodName: string, env: Environment)
      returns (status: Status, pids: seq<Pid>, loaded: seq<WorkerRecord>)
      modifies this, subject
      ensures status == Exited(1) <==> exists k: nat :: k < workers && env.fork(k).ForkFailed?
      ensures status == Completed || status == Exited(1)
      ensures status == Exited(1) ==> subject.iterations == old(subject.iterations) && events == old(events)
      ensures status == Completed ==>
        && AllForked(env, if workers < 0 then 0 else workers)
        && |pids| == (if workers < 0 then 0 else workers)
        && (forall k :: 0 <= k < |pids| ==> pids[k] == env.fork(k).pid)
        && Stored(store, RunKey(runId, methodName)) == Stored(old(store), RunKey(runId, methodName)) + Published(env, |pids|)
        && (forall other :: other != RunKey(runId, methodName) ==> Stored(store, other) == Stored(old(store), other))
        && (forall r :: r in loaded <==> r in Stored(store, RunKey(runId, methodName)))
        && Distinct(loaded)
        && var iteration := Iteration(
             Millis(SumNanos(loaded)), MaxPeak(loaded),
             env.after.inputBytes - env.before.inputBytes,
             env.after.outputBytes - env.before.outputBytes, subject);
           && subject.iterations == old(subject.iterations) + [iteration]
           && events == old(events) + [IterationFinished(iteration), SubjectFinished(subject), SubjectFinished(subject)]
      ensures calls == old(calls)
    {
      pids, loaded := [], [];
      var rx1, tx1 := env.before.inputBytes, env.before.outputBytes;
      var key := RunKey(runId, methodName);
      var i := 0;
      while i < workers
        invariant 0 <= i && (workers >= 0 ==> i <= workers) && (workers < 0 ==> i == 0)
        invariant |pids| == i && AllForked(env, i)
        invariant forall k :: 0 <= k < i ==> pids[k] == env.fork(k).pid
        invariant Stored(store, key) == Stored(old(store), key) + Published(env, i)
        invariant forall other :: other != key ==> Stored(store, other) == Stored(old(store), other)
        invariant events == old(events) && calls == old(calls)
        invariant subject.iterations == old(subject.iterations)
      {
        var forked := env.fork(i);
        if forked.ForkFailed? {
          return Exited(1), pids, loaded;
        }
        var warmupCalls, timedCalls := RunWorker(methodName, benchmark, forked.pid, env.worker(i));
        pids := pids + [forked.pid];
        i := i + 1;
      }
      var rx2, tx2 := env.after.inputBytes, env.after.outputBytes;
      loaded := LoadIterations(methodName);
      var totalNanos, maxPeakMemory := Aggregate(loaded);
      var iteration := subject.AddIteration(Millis(totalNanos), maxPeakMemory, rx2 - rx1, tx2 - tx1);
      events := events + [IterationFinished(iteration), SubjectFinished(subject), SubjectFinished(subject)];
      return Completed, pids, loaded;
    }

    /** One pass of run's outer loop: startingBenchmark, one fresh subject
        per benchmark method in order, the forking path iff workers > 1,
        and finishedSubjects once every method has run. */
    method RunBenchmark(plan: Plan, env: nat -> Environment) returns (status: Status, subjects: seq<Subject>)
      modifies this
      ensures status == Completed ==> |subjects| == |plan.methods|
      ensures |subjects| <= |plan.methods|
      ensures forall k :: 0 <= k < |subjects| ==>
        && fresh(subjects[k])
        && subjects[k].methodName == plan.methods[k]
        && subjects[k].benchmark == plan.benchmark
      ensures status == Completed ==> forall k :: 0 <= k < |subjects| ==>
        |subjects[k].iterations| == if workers > 1 then 1 else plan.benchmark.iterations
      ensures status == Completed ==>
        && |events| >= |old(events)| + 2
        && events[|old(events)|] == BenchmarkStarted(plan.benchmark)
        && events[|events| - 1] == SubjectsFinished(subjects)
    {
      subjects := [];
      events := events + [BenchmarkStarted(plan.benchmark)];
      var m := 0;
      while m < |plan.methods|
        invariant 0 <= m <= |plan.methods| && |subjects| == m
        invariant |events| >= |old(events)| + 1 && events[|old(events)|] == BenchmarkStarted(plan.benchmark)
        invariant forall k :: 0 <= k < m ==>
          && fresh(subjects[k])
          && subjects[k].methodName == plan.methods[k]
          && subjects[k].benchmark == plan.benchmark
          && |subjects[k].iterations| == if workers > 1 then 1 else plan.benchmark.iterations
      {
        var subject := new Subject(plan.methods[m], plan.benchmark);
        var outcome;
        if workers > 1 {
          var pids, loaded;
          outcome, pids, loaded := RunMethodConcurrent(subject, plan.benchmark, plan.methods[m], env(m));
        } else {
          var windowCalls;
          outcome, windowCalls := RunMethod(subject, plan.benchmark, env(m));
        }
        subjects := subjects + [subject];
        if outcome != Completed {
          return outcome, subjects;
        }
        m := m + 1;
      }
      events := events + [SubjectsFinished(subjects)];
      return Completed, subjects;
    }

    /** run: the benchmark classes in order, stopping with the first run
        that exits or never ends. */
    method Run(plans: seq<Plan>, env: nat -> nat -> Environment) returns (status: Status, runs: seq<seq<Subject>>)
      modifies this
      ensures |runs| <= |plans|
      ensures status == Completed ==> |runs| == |plans|
      ensures forall b :: 0 <= b < |runs| ==> |runs[b]| <= |plans[b].methods|
      ensures status == Completed ==> forall b :: 0 <= b < |runs| ==> |runs[b]| == |plans[b].methods|
      ensures forall b, k :: 0 <= b < |runs| && 0 <= k < |runs[b]| ==>
        fresh(runs[b][k]) && runs[b][k].methodName == plans[b].methods[k] && runs[b][k].benchmark == plans[b].benchmark
    {
      runs := [];
      var b := 0;
      while b < |plans|
        invariant 0 <= b <= |plans| && |runs| == b
        invariant forall c :: 0 <= c < b ==> |runs[c]| == |plans[c].methods|
        invariant forall c, k :: 0 <= c < b && 0 <= k < |runs[c]| ==>
          fresh(runs[c][k]) && runs[c][k].methodName == plans[c].methods[k] && runs[c][k].benchmark == plans[c].benchmark
      {
        var outcome, subjects := RunBenchmark(plans[b], env(b));
        runs := runs + [subjects];
        if outcome != Completed {
          return outcome, runs;
        }
        b := b + 1;
      }
      return Completed, runs;
    }
  }
}

=== FILE: workload.dfy ===
/** Stand-ins for two collaborators that are not part of this model: the
    Benchmark base class, reduced to the figures the core reads from it,
    and a Redis client, reduced to the log of commands it is sent. */
module Workload {

  /** The figures a benchmark class supplies: its Warmup, Iterations and
      Revolutions constants, ops(), getName() and the opsTotal() that
      setOpsTotal changes. */
  class Benchmark {
    const name: string
    const ops: nat
    const warmup: nat
    const iterations: nat
    const revolutions: nat
    var opsTotal: nat

    constructor (name: string, ops: nat, warmup: nat, iterations: nat, revolutions: nat, opsTotal: nat)
      ensures this.name == name && this.ops == ops && this.warmup == warmup
      ensures this.iterations == iterations && this.revolutions == revolutions
      ensures this.opsTotal == opsTotal
    {
      this.name := name;
      this.ops := ops;
      this.warmup := warmup;
      this.iterations := iterations;
      this.revolutions := revolutions;
      this.opsTotal := opsTotal;
    }

    method SetOpsTotal(total: nat)
      modifies this
      ensures opsTotal == total
    {
      opsTotal := total;
    }
  }

  /** The Redis commands the benchmarks issue. */
  datatype Command<V> = Get(key: string) | Set(key: string, value: V) | Mget(keys: seq<string>)

  /** The four clients every benchmark compares. */
  datatype ClientKind = Predis | PhpRedis | RelayNoCache | Relay

  /** A Redis client connection, seen through the commands sent on it. */
  class Client<V> {
    var sent: seq<Command<V>>

    constructor ()
      ensures sent == []
    {
      sent := [];
    }

    method Send(command: Command<V>)
      modifies this
      ensures sent == old(sent) + [command]
    {
      sent := sent + [command];
    }
  }
}

=== FILE: zstd_igbinary.dfy ===
/** benchmarks/BenchmarkZstdIgbinary.php: every item of the data set is
    written under "<client>:<id>" with one payload of ten random items, and
    the benchmark reads every key back under the same prefix. */
module ZstdIgbinary {
  import opened Results
  import opened Workload
  import Coordination

  const Operations: nat := 1000
  const Iterations: nat := 5
  const Revolutions: nat := 25
  const Warmup: nat := 1

  /** The chunkSize property: how many items each payload holds. */
  const ChunkSize: nat := 10

  /** A decoded object of the data set: its id and its other members. */
  datatype Item = Item(id: string, attributes: map<string, string>)

  /** What a seeding SET carries: Predis gets the PHP serialize() string of
      the items, the other clients get the array itself and encode it with
      their own serializer and compression options. */
  datatype Payload = Serialized(items: seq<Item>) | Native(items: seq<Item>)

  /** array_rand throws a ValueError when asked for more keys than there are. */
  datatype RandError = TooFewItems

  /** The keys property: the item ids, in data order. */
  function Ids(data: seq<Item>): (ids: seq<string>)
    ensures |ids| == |data|
    ensures forall k :: 0 <= k < |data| ==> ids[k] == data[k].id
  {
    if data == [] then [] else [data[0].id] + Ids(data[1..])
  }

  /** The Redis key of an id in a client's namespace. */
  function KeyOf(name: string, id: string): string
  {
    name + ":" + id
  }

  /** The SETs seedClient issues: one per item, in data order. */
  function Seeds(name: string, data: seq<Item>, payload: Payload): seq<Command<Payload>>
  {
    seq(|data|, k requires 0 <= k < |data| => Set(KeyOf(name, data[k].id), payload))
  }

  /** The GETs doBenchmark issues: one per key, in key order. */
  function Gets(name: string, keys: seq<string>): seq<Command<Payload>>
  {
    seq(|keys|, k requires 0 <= k < |keys| => Get(KeyOf(name, keys[k])))
  }

  /** The keys a sequence of GETs and SETs touches. */
  function Touched(commands: seq<Command<Payload>>): set<string>
  {
    set k | 0 <= k < |commands| && !commands[k].Mget? :: commands[k].key
  }

  /** The benchmark reads back, one for one and in the same order, exactly
      the keys seeding wrote under that name. */
  lemma ReadsWhatIsSeeded(name: string, data: seq<Item>, payload: Payload)
    ensures |Gets(name, Ids(data))| == |Seeds(name, data, payload)|
    ensures forall k :: 0 <= k < |data| ==> Gets(name, Ids(data))[k].key == Seeds(name, data, payload)[k].key
    ensures Touched(Gets(name, Ids(data))) == Touched(Seeds(name, data, payload))
  {
    var gets := Gets(name, Ids(data));
    var sets := Seeds(name, data, payload);
    forall key | key in Touched(gets)
      ensures key in Touched(sets)
    {
      var k :| 0 <= k < |gets| && !gets[k].Mget? && gets[k].key == key;
      assert sets[k].key == key;
    }
    forall key | key in Touched(sets)
      ensures key in Touched(gets)
    {
      var k :| 0 <= k < |sets| && !sets[k].Mget? && sets[k].key == key;
      assert gets[k].key == key;
    }
  }

  /** Different ids give different keys in one namespace. */
  lemma KeyOfInjective(name: string, a: string, b: string)
    ensures KeyOf(name, a) == KeyOf(name, b) ==> a == b
  {
    if KeyOf(name, a) == KeyOf(name, b) {
      assert a == KeyOf(name, a)[|name| + 1..];
      assert b == KeyOf(name, b)[|name| + 1..];
    }
  }

  /** The namespace each benchmark method reads: both Relay variants read
      what was seeded through relayNoCache. */
  function PrefixFor(kind: ClientKind): (name: string)
    ensures kind.Relay? || kind.RelayNoCache? ==> name == "relay"
    ensures kind.Predis? ==> name == "predis"
    ensures kind.PhpRedis? ==> name == "phpredis"
  {
    match kind
    case Predis => "predis"
    case PhpRedis => "phpredis"
    case RelayNoCache => "relay"
    case Relay => "relay"
  }

  /** The three namespaces never share a key, whatever the ids. */
  lemma NamespacesDisjoint(k1: ClientKind, k2: ClientKind, a: string, b: string)
    requires PrefixFor(k1) != PrefixFor(k2)
    ensures KeyOf(PrefixFor(k1), a) != KeyOf(PrefixFor(k2), b)
  {
    var x := KeyOf(PrefixFor(k1), a);
    var y := KeyOf(PrefixFor(k2), b);
    assert x[0] != y[0] || x[1] != y[1];
  }

  /** The indices below n that were chosen, in increasing order. */
  function Positions(n: nat, chosen: set<nat>): seq<nat>
  {
    if n == 0 then []
    else Positions(n - 1, chosen) + (if n - 1 in chosen then [n - 1] else [])
  }

  /** Positions lists every chosen index below n, each once, increasing. */
  lemma {:induction false} PositionsOrdered(n: nat, chosen: set<nat>)
    ensures forall k :: 0 <= k < |Positions(n, chosen)| ==> Positions(n, chosen)[k] < n && Positions(n, chosen)[k] in chosen
    ensures forall j, k :: 0 <= j < k < |Positions(n, chosen)| ==> Positions(n, chosen)[j] < Positions(n, chosen)[k]
    ensures forall i :: 0 <= i < n && i in chosen ==> i in Positions(n, chosen)
  {
    if n > 0 {
      PositionsOrdered(n - 1, chosen);
    }
  }

  /** The chosen indices below n, as a set. */
  function Below(n: nat, chosen: set<nat>): (s: set<nat>)
    ensures forall i :: i in s <==> i in chosen && i < n
  {
    if n == 0 then {}
    else Below(n - 1, chosen) + (if n - 1 in chosen then {n - 1} else {})
  }

  lemma AddFresh(s: set<nat>, x: nat)
    requires x !in s
    ensures |s + {x}| == |s| + 1
  {}

  /** There is one position per chosen index below n. */
  lemma {:induction false} PositionsCount(n: nat, chosen: set<nat>)
    ensures |Positions(n, chosen)| == |Below(n, chosen)|
  {
    if n > 0 {
      PositionsCount(n - 1, chosen);
      if n - 1 in chosen {
        AddFresh(Below(n - 1, chosen), n - 1);
      }
    }
  }

  /** array_values(array_intersect_key($xs, array_flip($chosen))): the
      elements whose index was chosen, in their original order. */
  function Select<T>(xs: seq<T>, chosen: set<nat>): seq<T>
  {
    if xs == [] then []
    else Select(xs[..|xs| - 1], chosen) + (if |xs| - 1 in chosen then [xs[|xs| - 1]] else [])
  }

  /** The selection is the elements at the chosen positions, in order. */
  lemma {:induction false} SelectAtPositions<T>(xs: seq<T>, chosen: set<nat>)
    ensures |Select(xs, chosen)| == |Positions(|xs|, chosen)|
    ensures forall k :: 0 <= k < |Positions(|xs|, chosen)| ==> Positions(|xs|, chosen)[k] < |xs|
    ensures forall k :: 0 <= k < |Select(xs, chosen)| ==> Select(xs, chosen)[k] == xs[Positions(|xs|, chosen)[k]]
  {
    PositionsOrdered(|xs|, chosen);
    if xs != [] {
      var init := xs[..|xs| - 1];
      SelectAtPositions(init, chosen);
      assert forall k :: 0 <= k < |init| ==> init[k] == xs[k];
    }
  }

  /** What array_rand($data, ChunkSize) promises about the keys it draws. */
  predicate Drawn(chosen: set<nat>, count: nat)
  {
    |chosen| == ChunkSize && forall i :: i in chosen ==> i < count
  }

  /** randomItems, with array_rand's draw as the parameter chosen: exactly
      ChunkSize distinct items of data, in data order, or the ValueError
      array_rand throws for a data set smaller than that. */
  function RandomItems(data: seq<Item>, chosen: set<nat>): (r: Result<seq<Item>, RandError>)
    requires |data| >= ChunkSize ==> Drawn(chosen, |data|)
    ensures r.Err? <==> |data| < ChunkSize
    ensures r.Ok? ==>
      var p := Positions(|data|, chosen);
      && |r.value| == |p| == ChunkSize
      && (forall k :: 0 <= k < ChunkSize ==> p[k] in chosen && r.value[k] == data[p[k]])
      && (forall j, k :: 0 <= j < k < ChunkSize ==> p[j] < p[k])
  {
    if |data| < ChunkSize then Err(TooFewItems)
    else
      PositionsOrdered(|data|, chosen);
      SelectAtPositions(data, chosen);
      PositionsCount(|data|, chosen);
      assert Below(|data|, chosen) == chosen;
      Ok(Select(data, chosen))
  }

  /** BenchmarkZstdIgbinary warms up with exactly one round of Revolutions calls. */
  lemma ZstdWarmup()
    ensures Coordination.WarmupCalls(Warmup, Revolutions) == Some(Revolutions)
  {}

  class BenchmarkZstdIgbinary {
    const predis: Client<Payload>
    const phpredis: Client<Payload>
    const relayNoCache: Client<Payload>
    const relay: Client<Payload>
    var data: seq<Item>
    var keys: seq<string>

    /** The four connections setUpClients opens are distinct. */
    predicate Valid()
    {
      && predis != phpredis && predis != relayNoCache && predis != relay
      && phpredis != relayNoCache && phpredis != relay && relayNoCache != relay
    }

    constructor ()
      ensures Valid() && data == [] && keys == []
      ensures fresh(predis) && fresh(phpredis) && fresh(relayNoCache) && fresh(relay)
      ensures predis.sent == [] && phpredis.sent == [] && relayNoCache.sent == [] && relay.sent == []
    {
      predis := new Client();
      phpredis := new Client();
      relayNoCache := new Client();
      relay := new Client();
      data := [];
      keys := [];
    }

    function ClientFor(kind: ClientKind): Client<Payload>
    {
      match kind
      case Predis => predis
      case PhpRedis => phpredis
      case RelayNoCache => relayNoCache
      case Relay => relay
    }

    /** seedClient: one SET of name:id per item, all with the same payload. */
    method SeedClient(client: Client<Payload>, name: string, payload: Payload)
      modifies client
      ensures client.sent == old(client.sent) + Seeds(name, data, payload)
    {
      var i := 0;
      while i < |data|
        invariant 0 <= i <= |data|
        invariant client.sent == old(client.sent) + Seeds(name, data[..i], payload)
      {
        assert Seeds(name, data[..i + 1], payload)
          == Seeds(name, data[..i], payload) + [Set(KeyOf(name, data[i].id), payload)];
        client.Send(Set(KeyOf(name, data[i].id), payload));
        i := i + 1;
      }
      assert data[..i] == data;
    }

    /** setUp with the decoded data set and the three draws array_rand makes
        (relay, then predis, then phpredis). The relay payload is seeded
        once, through relayNoCache; a data set smaller than ChunkSize makes
        the first draw throw before anything is written. */
    method SetUp(json: seq<Item>, relayDraw: set<nat>, predisDraw: set<nat>, phpredisDraw: set<nat>)
      returns (r: Outcome<RandError>)
      requires Valid()
      requires |json| >= ChunkSize ==> Drawn(relayDraw, |json|) && Drawn(predisDraw, |json|) && Drawn(phpredisDraw, |json|)
      modifies this, relayNoCache, predis, phpredis
      ensures data == json && keys == Ids(json)
      ensures r.Pass? <==> |json| >= ChunkSize
      ensures r.Fail? ==>
        && relayNoCache.sent == old(relayNoCache.sent)
        && predis.sent == old(predis.sent)
        && phpredis.sent == old(phpredis.sent)
      ensures r.Pass? ==>
        && relayNoCache.sent == old(relayNoCache.sent) + Seeds("relay", json, Native(RandomItems(json, relayDraw).value))
        && predis.sent == old(predis.sent) + Seeds("predis", json, Serialized(RandomItems(json, predisDraw).value))
        && phpredis.sent == old(phpredis.sent) + Seeds("phpredis", json, Native(RandomItems(json, phpredisDraw).value))
      ensures relay.sent == old(relay.sent)
    {
      data := json;
      keys := Ids(json);
      var relayItems := RandomItems(data, relayDraw);
      if relayItems.Err? {
        return Fail(relayItems.error);
      }
      SeedClient(relayNoCache, "relay", Native(relayItems.value));
      var predisItems := RandomItems(data, predisDraw);
      SeedClient(predis, "predis", Serialized(predisItems.value));
      var phpredisItems := RandomItems(data, phpredisDraw);
      SeedClient(phpredis, "phpredis", Native(phpredisItems.value));
      return Pass;
    }

    /** doBenchmark: one GET of name:key per key, in key order; returns the
        number of keys. */
    method DoBenchmark(client: Client<Payload>, name: string) returns (count: int)
      modifies client
      ensures client.sent == old(client.sent) + Gets(name, keys)
      ensures count == |keys|
    {
      var i := 0;
      while i < |keys|
        invariant 0 <= i <= |keys|
        invariant client.sent == old(client.sent) + Gets(name, keys[..i])
      {
        assert Gets(name, keys[..i + 1]) == Gets(name, keys[..i]) + [Get(KeyOf(name, keys[i]))];
        client.Send(Get(KeyOf(name, keys[i])));
        i := i + 1;
      }
      assert keys[..i] == keys;
      return |keys|;
    }

    /** benchmarkPredis, benchmarkPhpRedis, benchmarkRelayNoCache and
        benchmarkRelay: doBenchmark on the matching connection and
        namespace; the other three connections see nothing. */
    method RunClient(kind: ClientKind) returns (count: int)
      requires Valid()
      modifies ClientFor(kind)
      ensures ClientFor(kind).sent == old(ClientFor(kind).sent) + Gets(PrefixFor(kind), keys)
      ensures count == |keys|
      ensures forall other: ClientKind :: other != kind ==> ClientFor(other).sent == old(ClientFor(other).sent)
    {
      count := DoBenchmark(ClientFor(kind), PrefixFor(kind));
    }
  }

  /** After setUp, every benchmark method reads exactly the keys its
      namespace was seeded with, both Relay variants included. */
  lemma {:induction false} BenchmarkReadsSeededKeys(json: seq<Item>, kind: ClientKind, payload: Payload)
    ensures Touched(Gets(PrefixFor(kind), Ids(json))) == Touched(Seeds(PrefixFor(kind), json, payload))
    ensures kind.Relay? ==> Touched(Gets(PrefixFor(kind), Ids(json))) == Touched(Seeds("relay", json, payload))
  {
    ReadsWhatIsSeeded(PrefixFor(kind), json, payload);
  }
}
